=== FILE: README.md ===
# Timesheet backend read path, modelled in Dafny

This project models the read side of a small Express/MySQL timesheet
service. That read side has several parts:

- the list handlers for users and projects, which read pagination and a
  search text from the query string and bind them to two statements (a page
  and a count);
- the timesheet list handler, which builds a WHERE clause from optional
  name, project and date filters, and pages the rows;
- the `adjustHours` display table, applied to every timesheet row and to the
  summed total;
- the three dashboard count handlers;
- the two display helpers `capitalizeWords` and `formatDateLocal`.

The database is not executed. The three list handlers and the timesheet
handler are modelled as the *request* they hand to the database: the
statement as a sequence of text and `?` placeholders, plus the parameter
vector. An evaluator of the WHERE clause over in-memory rows then shows that
the WHERE clauses select the rows the handler means to select. The by-id
read and the three dashboard counts are modelled directly as their result
over in-memory rows. The JavaScript behaviour the handlers rely on is
written out, because the outcomes depend on it:

- `parseInt`: whitespace, sign, a `0x` prefix, and NaN when there are no digits;
- truthiness;
- `null >= 0` being true;
- `x || default`.

MySQL's `LIKE` is modelled with `%`, `_` and the backslash escape.

Modules (one per file): `Common` (options, query values, parameters,
statement tokens, counting), `JsNumber`, `Paging`, `SqlLike`, `Listing` (the
request shared by the three list handlers), `Users`, `UserTable`, `Projects`,
`Timesheets`, `Dashboard`, `Utils`.

Hours are integer hundredths of an hour (1.25 is 125), so the lookup table is
exact.

The total `totalAdjustedHoursWorked` is `adjustHours` of the raw SQL sum
(apicontroller/timesheet.js:93-98), not the sum of the per-row adjusted
hours. `Timesheets.TotalIsNotSumOfAdjustedRows` exhibits two rows where the
two differ.

## Model

| member | source | states |
|---|---|---|
| JsNumber.ReadQueryInt | apicontroller/users.js:5-6 | a query value is null exactly when it is missing or empty; otherwise it is `parseInt` of it, a number or NaN |
| JsNumber.ParseIntOfNumeral | apicontroller/users.js:5 | `parseInt` reads back the numeral of any integer and stops at the first character that cannot continue it (`"25abc"` is 25) |
| JsNumber.ParseIntSkipsSpace | apicontroller/users.js:5 | `parseInt` ignores leading white space |
| JsNumber.ParseInt | apicontroller/users.js:5 | `parseInt` is NaN exactly when, after white space and an optional sign, no decimal digit follows, or a `0x` prefix is followed by no hexadecimal digit; it is never null, and negative only after a minus sign |
| JsNumber.AtLeastZero | apicontroller/users.js:37 | `limit >= 0` converts the value to a number first, null becoming 0, and is false for NaN; so a missing limit passes the test |
| JsNumber.DecimalRoundTrip | utilityclient/utils.js:17-20 | the decimal text of an integer, as template interpolation writes it, reads back as that integer |
| Paging.Offset | apicontroller/users.js:7 | the offset exists exactly when limit and page are both nonzero numbers; for a positive limit and page it is non-negative and the page ends at row `page * limit` |
| Paging.OffsetWindows | apicontroller/users.js:7 | an offset exists exactly when limit and page are both nonzero numbers; page 1 starts at row 0 and each next page starts `limit` rows later |
| SqlLike.SearchFindsContaining | apicontroller/users.js:10-22 | the pattern `%search%` matches a value exactly when the value contains the search text, for any search text without LIKE wildcards |
| SqlLike.EmptySearchMatchesAll | apicontroller/users.js:10-11 | the default empty search matches every value |
| Listing.BuildListRequest | apicontroller/users.js:3-46 | the shared list request: pattern `%search%`; offset from limit and page; count parameters are the pattern once per searched column; the page parameters add limit and offset exactly when `limit >= 0` (so also for a missing limit); every placeholder is bound |
| Listing.PageAndCountSelectListed | apicontroller/users.js:37-46 | the WHERE clauses of the page and count statements, under their bindings, both select exactly the non-deleted rows with a searched column matching the pattern; the limit and offset bindings after them do not take part in the WHERE clause |
| Users.NameOf | apicontroller/users.js:19 | the left join yields the name of a user with the given id, and NULL only when the id is NULL or no user has it |
| Users.Join | apicontroller/users.js:18-19 | the join keeps every user, in order, paired with its creator's name |
| Users.ReadUsers | apicontroller/users.js:3-46 | four pattern bindings for the count; six bindings for the page when `limit >= 0`, with limit and offset NULL when no limit is given; four otherwise; placeholders and bindings agree |
| Users.ReadUsersSelectsListed | apicontroller/users.js:20-46 | the WHERE clauses of both statements, under their bindings, select exactly the listed users: not deleted, and name, email, role or creator name matches |
| Users.SearchByContainment | apicontroller/users.js:10-22 | a search text without wildcards lists exactly the non-deleted users whose name, email, role or creator name contains it |
| Users.EmptySearchListsAll | apicontroller/users.js:10-22 | with no search text every non-deleted user is listed |
| Users.ListUsers | apicontroller/users.js:14-23 | the listed rows are exactly the joined rows the WHERE clause keeps, all of them non-deleted, each as many times as it occurs in the join and no more |
| Users.ReadUserById | apicontroller/users.js:65-84 | the answer is a non-deleted user with that id, and nothing exactly when no non-deleted user has that id |
| UserTable.ReadUsers | apicontroller/user.js:13-57 | the same four pattern bindings and the same limit/offset rule as the users list, over the `user` table |
| UserTable.ReadUsersSelectsListed | apicontroller/user.js:25-57 | the WHERE clauses of both statements, under their bindings, select exactly the listed rows of the `user` table |
| Projects.Join | apicontroller/projects.js:14-23 | every project is kept, in order, with the names of its creator, manager and employee |
| Projects.ReadProjects | apicontroller/projects.js:3-52 | four pattern bindings for the count, and limit and offset added for the page exactly when `limit >= 0` |
| Projects.ListProjects | apicontroller/projects.js:14-27 | the listed rows are exactly the joined rows the WHERE clause keeps, all of them non-deleted, each as many times as it occurs in the join and no more |
| Projects.ReadProjectsSelectsListed | apicontroller/projects.js:24-52 | the WHERE clauses of both statements, under their bindings, select exactly the non-deleted projects whose name or creator, manager or employee name matches |
| Projects.SearchByContainment | apicontroller/projects.js:10-26 | a search text without wildcards lists exactly the non-deleted projects where one of the four names contains it |
| Timesheets.FrontFilters | apicontroller/timesheet.js:15-26 | the clause starts with `1=1`, holds no date condition, and has one binding per placeholder |
| Timesheets.Filters | apicontroller/timesheet.js:15-37 | the whole WHERE clause starts with `1=1` and has one binding per placeholder |
| Timesheets.DateCases | apicontroller/timesheet.js:28-37 | the clause ends with BETWEEN bound to both dates when both are given, with `>=` bound to the start or `<=` bound to the end when only one is, and holds exactly one date condition when a date is given and none otherwise |
| Timesheets.ReadTimesheets | apicontroller/timesheet.js:3-57 | BETWEEN with both dates, `>=` with only the start, `<=` with only the end, nothing otherwise; limit and offset are bound exactly when a limit is given; ordering defaults to `t.workDate DESC`; placeholders and bindings agree |
| Timesheets.EvalNameFilter | apicontroller/timesheet.js:18-21 | a given name keeps exactly the rows of the user with that name; no name keeps every row |
| Timesheets.EvalProjectFilter | apicontroller/timesheet.js:23-26 | a given project name keeps exactly the rows of that project; none keeps every row |
| Timesheets.EvalDateFilter | apicontroller/timesheet.js:28-37 | the date condition keeps exactly the rows whose work date lies within the inclusive bounds given |
| Timesheets.EvalFilters | apicontroller/timesheet.js:15-39 | the WHERE clause with its bindings keeps exactly the requested rows, whatever values follow the bindings |
| Timesheets.WhereSelectsRequested | apicontroller/timesheet.js:39-78 | the WHERE clauses of the page, count and sum statements, under their bindings, all select exactly the requested rows; the latter two get the same list, limit and offset included, and the extra values are ignored |
| Timesheets.WhereIgnoresDeletion | apicontroller/timesheet.js:15-39 | the WHERE clause has no `deletedAt` condition: a soft-deleted timesheet is listed, counted and summed exactly like one that is not |
| Timesheets.SelectTimesheets | apicontroller/timesheet.js:59-71 | the rows the count and sum statements range over are exactly the requested rows of the table, each as many times as it occurs there |
| Timesheets.AdjustHours | apicontroller/timesheet.js:80-86 | a table key becomes its clock reading (minutes written as the decimals); any other value is returned unchanged; the result never exceeds the input and keeps the whole hours |
| Timesheets.AdjustmentsTable | apicontroller/timesheet.js:81-84 | the table maps exactly the eight values 1.25, 1.50, 1.75, 2.00, 8.25, 8.50, 8.75, 9.00, to 1.15, 1.30, 1.45, 2.00, 8.15, 8.30, 8.45, 9.00 |
| Timesheets.AdjustHoursIdempotent | apicontroller/timesheet.js:80-86 | adjusting twice is adjusting once |
| Timesheets.AdjustRows | apicontroller/timesheet.js:88-91 | the row mapping keeps the number and order of rows and changes only `hoursWorked`, which it adjusts |
| Timesheets.Respond | apicontroller/timesheet.js:93-99 | the response carries the adjusted rows, the count, and the adjusted raw sum, 0 when the sum is NULL |
| Timesheets.RespondOverTable | apicontroller/timesheet.js:59-99 | the count is the number of requested rows in the table, and the total is the adjusted sum of their raw hours, whichever page is shown |
| Timesheets.TotalIsNotSumOfAdjustedRows | apicontroller/timesheet.js:88-98 | the total is not the sum of the adjusted rows: two rows of 1.25 show 1.15 each but a total of 2.50 |
| Dashboard.Flag | apicontroller/dasboard.js:5-6 | a flag is never set by a missing or empty value, and a present value sets it only when it is exactly `true` |
| Dashboard.ReadManagerAndEmployeeCount | apicontroller/dasboard.js:3-28 | 404 with "No manager found" or "No employee found" exactly when no non-deleted user of the role group (and active when asked) exists; otherwise 200 with their number |
| Dashboard.ActiveCountAtMostAll | apicontroller/dasboard.js:19-21 | asking for active users never raises the count |
| Dashboard.RoleGroupsDisjoint | apicontroller/dasboard.js:13-17 | the two role groups do not overlap; together they count at most the non-deleted users |
| Dashboard.ReadProjectCount | apicontroller/dasboard.js:36-54 | 404 "No project found" exactly when no non-deleted project (completed, when asked) exists; otherwise 200 with their number |
| Dashboard.CompletedCountAtMostAll | apicontroller/dasboard.js:45-47 | asking for completed projects never raises the count |
| Dashboard.Clients | apicontroller/dasboard.js:65-68 | the distinct client names are exactly the non-NULL client names of non-deleted projects |
| Dashboard.ClientsAtMostProjects | apicontroller/dasboard.js:65-68 | there are never more distinct clients than non-deleted projects |
| Dashboard.ReadClientCount | apicontroller/dasboard.js:61-75 | 404 "No client found" exactly when every non-deleted project has a NULL client name; otherwise 200 with the number of distinct client names, which lies between 1 and the project count |
| Utils.CapitalizeFrom | utilityclient/utils.js:29 | the replacement keeps the length and upper-cases exactly the characters `\b\w` matches |
| Utils.CapitalizeWords | utilityclient/utils.js:27-30 | the empty string for a missing or non-string value; otherwise the same length, every word start upper-cased, every other character kept |
| Utils.CapitalizeChangesOnlyWordStarts | utilityclient/utils.js:29 | a character changes exactly when it is a lower-case letter that starts a word, and then it becomes its capital |
| Utils.CapitalizeIdempotent | utilityclient/utils.js:27-30 | capitalizing twice is capitalizing once |
| Utils.PadStart | utilityclient/utils.js:15 | padding keeps the text at the end and fills up to the width with the pad character |
| Utils.PadDayDigits | utilityclient/utils.js:15 | the padded day is exactly two digits spelling the day |
| Utils.FormatDate | utilityclient/utils.js:15-20 | the text is two digits spelling the day, `-`, the month's abbreviation from the twelve-entry table, `-`, then the year's decimal numeral |
| Utils.FormatDateRoundTrip | utilityclient/utils.js:9-20 | the `DD-MMM-YYYY` text reads back as the day, month and year it shows |
| Utils.DisplayDateDetermined | utilityclient/utils.js:15-20 | any text that reads back as a date is the display of that date, so each date has exactly one display text |
| Utils.FormatDateLocal | utilityclient/utils.js:1-25 | the empty string for a missing or empty input; an invalid date is returned unchanged; a valid one is rendered as the one text that reads back as that date, with dashes at positions 2 and 6 |

## Left out

- I/O: Express requests and responses, the MySQL pool, `mysqlQuery` (utilityclient/query.js) and the route table (app.js) are not part of this model. Statements are modelled as text with placeholders, and their selection as an evaluator over in-memory rows.
- Error paths: the 500 responses and the logging on a failed statement are left out, because they depend on the database failing, which the model does not represent.
- `Promise.all`: the two or three statements of a handler are independent reads, modelled as evaluated over one snapshot of the tables.
- Ordering: `ORDER BY ${orderBy} ${sort}` is text interpolated into the statement, not a binding. The timesheet handler's defaults are modelled. How rows are ordered is not. Neither is the users, user and projects handlers interpolating `undefined` when no order is given, which is a statement the database rejects.
- Timesheets.WhereIgnoresDeletion: the schema of the `timesheets` table is not part of this model. The row is given a `deletedAt` mark like the users and projects tables, so that the absence of a `deletedAt` condition can be stated.
- LIMIT and OFFSET execution: the model states what is bound (including NULL or NaN for a missing or unparsable limit). It does not model what the database does with those values.
- Listing.PageAndCountSelectListed and Timesheets.WhereSelectsRequested speak about the WHERE clause only. The client writes the bound values into the statement text, and MySQL rejects several of the LIMIT and OFFSET values the handlers bind. These are `LIMIT NULL OFFSET NULL` for a missing limit in the three list handlers (apicontroller/users.js:37-40), `OFFSET NULL` for a limit without a page, a negative OFFSET for a page of 0 or less, and `LIMIT NaN` for an unparsable timesheet limit. On these inputs the page statement fails and the handler answers 500. That failure is not modelled.
- Collation: MySQL's default collation compares text case-insensitively. The model compares `=` and `LIKE` exactly. The `status = '1'` comparison is modelled as the number 1.
- Dashboard.Clients: `COUNT(DISTINCT clientName)` also compares under the collation, so MySQL counts "Acme" and "ACME" as one client, while the model counts two.
- Unique ids: the model assumes `userId` is unique in the users table. A LEFT JOIN on a duplicated id would repeat the joined row once per match, while `Users.NameOf` takes the first matching user.
- `parseInt` precision: JavaScript numbers are doubles. The model's integers are unbounded, so values beyond 2^53 and negative zero are not modelled.
- Query values: a repeated query key (which Express turns into an array) is not modelled. A query value is a string or absent.
- Date conversion: MySQL's conversion of a date text to a day is a parameter (`asDate`). So is `new Date(...)` parsing in local time (`parse`). The `DATE_FORMAT` columns of the responses are not modelled.
- Users.ReadUserById: the id from the URL path is modelled as a number. MySQL's conversion of the path text to a number is left out, and so are the date columns of the answer.
- `createUser` in apicontroller/users.js is unfinished and is not modelled. It is not routed: only `readUsers` and `readUserById` are registered (apicontroller/users.js:119-122). If it were routed with a session user, `validatePayload` is not defined, so the call would throw, and the `catch` would answer 500 (apicontroller/users.js:105, 113-116). Without a session user, reading `req.session.user.userId` (apicontroller/users.js:102) throws before the `try`, and the rejection goes unhandled.
- Timesheets.AdjustHours: hours are modelled as numbers in hundredths. If the driver returned the column as decimal text, the lookup would be keyed by that text, and that is not modelled.
- Utils.CapitalizeWords: every non-string value (number, object, null) is folded into `None`. Strings are sequences of Unicode scalar values rather than UTF-16 code units, which makes no difference for the ASCII-only `\w`.
- Utils.FormatDateLocal: only string inputs are modelled. The `catch` branch is not modelled, because constructing a date from a string does not throw.

=== FILE: common.dfy ===
/** Vocabulary shared by every handler model: optional values, the way the
    handlers read request query values, SQL parameter values, SQL statement
    text with placeholders, and order-preserving filters over row sequences. */
module Common {

  /** A value that may be missing (JavaScript `null`/`undefined`, SQL NULL). */
  datatype Option<+T> = None | Some(value: T)

  /** A request query parameter as a handler sees it: missing, or a string. */
  type Query = Option<string>

  /** JavaScript truthiness of a query value: only a present, non-empty string is truthy. */
  predicate Present(q: Query) {
    q.Some? && q.value != ""
  }

  /** `q || fallback` on a query value. */
  function Or(q: Query, fallback: string): string {
    if Present(q) then q.value else fallback
  }

  /** `q || null` on a query value. */
  function OrNull(q: Query): Option<string> {
    if Present(q) then q else None
  }

  /** A value bound to a `?` placeholder of a SQL statement. */
  datatype Param = Text(s: string) | Number(n: int) | NotANumber | Null

  /** Statement text: literal SQL, or one `?` placeholder. */
  datatype Token = Sql(text: string) | Hole

  /** The number of `?` placeholders in a statement. */
  function Holes(ts: seq<Token>): nat {
    if |ts| == 0 then 0 else (if ts[0].Hole? then 1 else 0) + Holes(ts[1..])
  }

  lemma {:induction false} HolesAppend(a: seq<Token>, b: seq<Token>)
    ensures Holes(a + b) == Holes(a) + Holes(b)
  {
    if |a| == 0 {
      assert a + b == b;
    } else {
      assert (a + b)[1..] == a[1..] + b;
      HolesAppend(a[1..], b);
    }
  }

  /** `n` copies of `x`. */
  function Repeat<T>(x: T, n: nat): (r: seq<T>)
    ensures |r| == n
    ensures forall i :: 0 <= i < n ==> r[i] == x
  {
    if n == 0 then [] else [x] + Repeat(x, n - 1)
  }

  lemma RepeatFour<T>(x: T)
    ensures Repeat(x, 4) == [x, x, x, x]
  {
    assert Repeat(x, 4) == [x, x, x, x];
  }

  // ----- small facts about concatenation -----

  lemma LastOfAppend<T>(x: seq<T>, y: seq<T>)
    requires |y| > 0
    ensures (x + y)[|x + y| - 1] == y[|y| - 1]
  {
  }

  lemma SuffixOfAppend<T>(x: seq<T>, y: seq<T>)
    ensures (x + y)[|x|..] == y
  {
  }

  lemma AppendTail<T>(x: seq<T>, y: seq<T>)
    requires |x| > 0
    ensures (x + y)[0] == x[0] && (x + y)[1..] == x[1..] + y
  {
    assert (x + y)[1..] == x[1..] + y;
  }

  lemma AppendSplit<T>(x: seq<T>, y: seq<T>, k: nat)
    requires k <= |x|
    ensures (x + y)[..k] == x[..k] && (x + y)[k..] == x[k..] + y
  {
    assert (x + y)[..k] == x[..k];
    assert (x + y)[k..] == x[k..] + y;
  }

  lemma AppendAssociative<T>(x: seq<T>, y: seq<T>, z: seq<T>)
    ensures (x + y) + z == x + (y + z)
  {
  }

  /** The elements of `s` satisfying `p`, in their original order and each as
      often as in `s` (a SQL WHERE over a table). */
  function Filter<T(!new)>(s: seq<T>, p: T -> bool): (r: seq<T>)
    ensures |r| <= |s|
    ensures forall x :: x in r <==> x in s && p(x)
    ensures |r| == Count(s, p)
    ensures forall x :: multiset(r)[x] == if p(x) then multiset(s)[x] else 0
  {
    if |s| == 0 then []
    else
      assert s == [s[0]] + s[1..];
      assert multiset(s) == multiset([s[0]]) + multiset(s[1..]);
      if p(s[0]) then [s[0]] + Filter(s[1..], p)
      else Filter(s[1..], p)
  }

  /** How many elements of `s` satisfy `p` (a SQL COUNT(*) with a WHERE). */
  function Count<T>(s: seq<T>, p: T -> bool): nat {
    if |s| == 0 then 0 else (if p(s[0]) then 1 else 0) + Count(s[1..], p)
  }

  /** A narrower predicate never counts more elements. */
  lemma {:induction false} CountMonotonic<T>(s: seq<T>, p: T -> bool, q: T -> bool)
    requires forall x :: x in s && p(x) ==> q(x)
    ensures Count(s, p) <= Count(s, q)
  {
    if |s| > 0 {
      CountMonotonic(s[1..], p, q);
    }
  }

  /** Count is zero exactly when no element satisfies the predicate. */
  lemma {:induction false} CountZero<T>(s: seq<T>, p: T -> bool)
    ensures Count(s, p) == 0 <==> forall x :: x in s ==> !p(x)
  {
    if |s| > 0 {
      CountZero(s[1..], p);
      assert forall x :: x in s <==> x == s[0] || x in s[1..];
    }
  }

  /** Counting over two disjoint predicates never exceeds counting their union. */
  lemma {:induction false} CountDisjoint<T>(s: seq<T>, p: T -> bool, q: T -> bool, u: T -> bool)
    requires forall x :: x in s ==> !(p(x) && q(x))
    requires forall x :: x in s && (p(x) || q(x)) ==> u(x)
    ensures Count(s, p) + Count(s, q) <= Count(s, u)
  {
    if |s| > 0 {
      CountDisjoint(s[1..], p, q, u);
    }
  }
}

=== FILE: dashboard.dfy ===
/** The dashboard count handlers: head counts by role group, project counts,
    and the number of distinct clients, each answering 404 when the count is
    zero. The counts are computed over in-memory tables. */
module Dashboard {
  import opened Common
  import Users
  import Projects

  /** A flag query parameter, compared with `=== 'true'`: a missing or empty
      value never sets it, and a present one only when it is exactly `true`. */
  predicate Flag(q: Query)
    ensures !Present(q) ==> !Flag(q)
    ensures Present(q) ==> (Flag(q) <==> q.value == "true")
  {
    q == Some("true")
  }

  /** A count answer: status 404 with a message, or status 200 with the count. */
  datatype CountResponse = NotFound(message: string) | Found(count: nat)

  /** The role group of the head count: admins and managers, or hr and employees. */
  predicate InRoleGroup(u: Users.User, manager: bool) {
    if manager then u.role == "admin" || u.role == "manager"
    else u.role == "hr" || u.role == "employee"
  }

  /** Whether a user is counted: not deleted, in the role group, and active when asked. */
  predicate CountedUser(u: Users.User, manager: bool, active: bool) {
    u.deletedAt.None? && InRoleGroup(u, manager) && (!active || u.status == 1)
  }

  function UserCount(users: seq<Users.User>, manager: bool, active: bool): nat {
    Count(users, (u: Users.User) => CountedUser(u, manager, active))
  }

  /** `readManagerAndEmployeeCount` */
  function ReadManagerAndEmployeeCount(users: seq<Users.User>, managerQ: Query, activeQ: Query): (r: CountResponse)
    ensures r.NotFound? <==> forall u :: u in users ==> !CountedUser(u, Flag(managerQ), Flag(activeQ))
    ensures r.NotFound? ==> r.message == (if Flag(managerQ) then "No manager found" else "No employee found")
    ensures r.Found? ==> r.count > 0 && r.count == UserCount(users, Flag(managerQ), Flag(activeQ))
  {
    var manager := Flag(managerQ);
    var active := Flag(activeQ);
    var n := UserCount(users, manager, active);
    CountZero(users, (u: Users.User) => CountedUser(u, manager, active));
    if n == 0 then NotFound("No " + (if manager then "manager" else "employee") + " found")
    else Found(n)
  }

  /** Restricting to active users never raises the count. */
  lemma ActiveCountAtMostAll(users: seq<Users.User>, manager: bool)
    ensures UserCount(users, manager, true) <= UserCount(users, manager, false)
  {
    CountMonotonic(users, (u: Users.User) => CountedUser(u, manager, true), (u: Users.User) => CountedUser(u, manager, false));
  }

  /** The two role groups are disjoint: together they never count more than the non-deleted users. */
  lemma RoleGroupsDisjoint(users: seq<Users.User>, active: bool)
    ensures UserCount(users, true, active) + UserCount(users, false, active)
         <= Count(users, (u: Users.User) => u.deletedAt.None?)
  {
    CountDisjoint(users, (u: Users.User) => CountedUser(u, true, active), (u: Users.User) => CountedUser(u, false, active),
                  (u: Users.User) => u.deletedAt.None?);
  }

  /** Whether a project is counted: not deleted, and completed when asked. */
  predicate CountedProject(p: Projects.Project, completed: bool) {
    p.deletedAt.None? && (!completed || p.status == "completed")
  }

  function ProjectCount(projects: seq<Projects.Project>, completed: bool): nat {
    Count(projects, (p: Projects.Project) => CountedProject(p, completed))
  }

  /** `readProjectCount` */
  function ReadProjectCount(projects: seq<Projects.Project>, completedQ: Query): (r: CountResponse)
    ensures r.NotFound? <==> forall p :: p in projects ==> !CountedProject(p, Flag(completedQ))
    ensures r.NotFound? ==> r.message == "No project found"
    ensures r.Found? ==> r.count > 0 && r.count == ProjectCount(projects, Flag(completedQ))
  {
    var completed := Flag(completedQ);
    var n := ProjectCount(projects, completed);
    CountZero(projects, (p: Projects.Project) => CountedProject(p, completed));
    if n == 0 then NotFound("No project found") else Found(n)
  }

  /** Restricting to completed projects never raises the count. */
  lemma CompletedCountAtMostAll(projects: seq<Projects.Project>)
    ensures ProjectCount(projects, true) <= ProjectCount(projects, false)
  {
    CountMonotonic(projects, (p: Projects.Project) => CountedProject(p, true), (p: Projects.Project) => CountedProject(p, false));
  }

  /** `COUNT(DISTINCT clientName)` over the non-deleted projects: NULL names are not counted. */
  function Clients(projects: seq<Projects.Project>): (cs: set<string>)
    ensures forall c :: c in cs <==> exists p :: p in projects && p.deletedAt.None? && p.clientName == Some(c)
  {
    if |projects| == 0 then {}
    else
      var p := projects[0];
      var rest := Clients(projects[1..]);
      assert forall q :: q in projects <==> q == p || q in projects[1..];
      if p.deletedAt.None? && p.clientName.Some? then rest + {p.clientName.value} else rest
  }

  /** There are never more distinct clients than non-deleted projects. */
  lemma {:induction false} ClientsAtMostProjects(projects: seq<Projects.Project>)
    ensures |Clients(projects)| <= ProjectCount(projects, false)
  {
    if |projects| > 0 {
      ClientsAtMostProjects(projects[1..]);
    }
  }

  /** `readClientCount` */
  function ReadClientCount(projects: seq<Projects.Project>): (r: CountResponse)
    ensures r.NotFound? <==> forall p :: p in projects && p.deletedAt.None? ==> p.clientName.None?
    ensures r.NotFound? ==> r.message == "No client found"
    ensures r.Found? ==> r.count == |Clients(projects)|
    ensures r.Found? ==> 0 < r.count <= ProjectCount(projects, false)
  {
    var n := |Clients(projects)|;
    ClientsAtMostProjects(projects);
    if n == 0 then NotFound("No client found")
    else
      Found(n)
  }
}

=== FILE: jsnumber.dfy ===
/** The JavaScript number handling the handlers rely on: `parseInt` of a
    query string, the truthiness and `>= 0` comparison of the parsed value
    (which may also be `null` or `NaN`), and integer-to-decimal conversion. */
module JsNumber {
  import opened Common

  /** `q ? parseInt(q) : null` — null, NaN, or an integer. */
  datatype QueryInt = Absent | NaN | Num(n: int)

  /** JavaScript truthiness: null, NaN and 0 are falsy. */
  predicate Truthy(x: QueryInt) {
    x.Num? && x.n != 0
  }

  /** The number a value converts to before a relational comparison
      (`ToNumber` of ECMA-262): null is 0, and NaN stays NaN (`None`). */
  function ToNumber(x: QueryInt): Option<int> {
    match x
    case Absent => Some(0)
    case NaN => None
    case Num(n) => Some(n)
  }

  /** `x >= 0`, decided case by case; it agrees with the two steps of the
      language (section 7.2.13 of ECMA-262): convert to a number, then compare,
      with NaN comparing false. So `null >= 0` holds. */
  predicate AtLeastZero(x: QueryInt)
    ensures AtLeastZero(x) <==> ToNumber(x).Some? && ToNumber(x).value >= 0
  {
    match x
    case Absent => true
    case NaN => false
    case Num(n) => n >= 0
  }

  /** ECMAScript WhiteSpace and LineTerminator code points, which `parseInt` skips. */
  predicate IsSpace(c: char) {
    || c == '\t' || c == '\n' || c == '\U{000B}' || c == '\U{000C}' || c == '\r' || c == ' '
    || c == '\U{00A0}' || c == '\U{1680}' || ('\U{2000}' <= c <= '\U{200A}')
    || c == '\U{2028}' || c == '\U{2029}' || c == '\U{202F}' || c == '\U{205F}'
    || c == '\U{3000}' || c == '\U{FEFF}'
  }

  /** `s` without its leading white space. */
  function TrimStart(s: string): (r: string)
    ensures |r| <= |s| && r == s[|s| - |r|..]
    ensures forall i :: 0 <= i < |s| - |r| ==> IsSpace(s[i])
    ensures |r| > 0 ==> !IsSpace(r[0])
  {
    if |s| > 0 && IsSpace(s[0]) then TrimStart(s[1..]) else s
  }

  /** The value of `c` as a digit in base 10 or 16, or -1 when it is not one. */
  function DigitValue(c: char, radix: int): int {
    var v :=
      if '0' <= c <= '9' then c as int - '0' as int
      else if 'a' <= c <= 'z' then c as int - 'a' as int + 10
      else if 'A' <= c <= 'Z' then c as int - 'A' as int + 10
      else -1;
    if v < radix then v else -1
  }

  predicate IsDigit(c: char, radix: int) {
    DigitValue(c, radix) >= 0
  }

  /** The length of the longest prefix of `s` made of digits of `radix`. */
  function DigitRun(s: string, radix: int): (k: nat)
    ensures k <= |s|
    ensures forall i :: 0 <= i < k ==> IsDigit(s[i], radix)
    ensures k < |s| ==> !IsDigit(s[k], radix)
  {
    if |s| > 0 && IsDigit(s[0], radix) then 1 + DigitRun(s[1..], radix) else 0
  }

  /** The value of a digit string, most significant digit first. */
  function DigitsValue(ds: string, radix: int): nat
    requires radix > 0
    requires forall i :: 0 <= i < |ds| ==> IsDigit(ds[i], radix)
  {
    if |ds| == 0 then 0
    else
      var high := DigitsValue(ds[..|ds| - 1], radix);
      assert high * radix >= 0;
      assert IsDigit(ds[|ds| - 1], radix);
      high * radix + DigitValue(ds[|ds| - 1], radix)
  }

  /** The sign `parseInt` reads: whether the number is negative, and the text after the sign. */
  function Sign(t: string): (bool, string) {
    if |t| > 0 && (t[0] == '-' || t[0] == '+') then (t[0] == '-', t[1..]) else (false, t)
  }

  /** The magnitude `parseInt` reads after the sign: a `0x`/`0X` prefix switches
      to base 16, then the longest run of digits; no digit at all is a failure. */
  function Magnitude(u: string): Option<nat> {
    var hex := |u| >= 2 && u[0] == '0' && (u[1] == 'x' || u[1] == 'X');
    var radix := if hex then 16 else 10;
    var v := if hex then u[2..] else u;
    var k := DigitRun(v, radix);
    if k == 0 then None else Some(DigitsValue(v[..k], radix))
  }

  /** `parseInt(s)` with no radix argument: skip leading white space, take an
      optional sign, then the magnitude; no digits at all gives NaN. A negative
      zero behaves as zero everywhere the handlers use the value, so it is `Num(0)`. */
  function ParseInt(s: string): (r: QueryInt)
    ensures !r.Absent?
    ensures var u := Sign(TrimStart(s)).1;
            r.NaN? <==> || |u| == 0 || !IsDigit(u[0], 10)
                        || (|u| >= 2 && u[0] == '0' && (u[1] == 'x' || u[1] == 'X') && (|u| == 2 || !IsDigit(u[2], 16)))
    ensures r.Num? && r.n < 0 ==> Sign(TrimStart(s)).0
  {
    ParseSigned(TrimStart(s))
  }

  /** `parseInt` from the first character that is not white space. */
  function ParseSigned(t: string): (r: QueryInt)
    ensures !r.Absent?
  {
    var (negative, u) := Sign(t);
    match Magnitude(u)
    case None => NaN
    case Some(m) => Num(if negative then -(m as int) else m)
  }

  /** `req.query.x ? parseInt(req.query.x) : null` */
  function ReadQueryInt(q: Query): (r: QueryInt)
    ensures r.Absent? <==> !Present(q)
    ensures Present(q) ==> r == ParseInt(q.value)
  {
    if Present(q) then ParseInt(q.value) else Absent
  }

  function DigitChar(d: nat): (c: char)
    requires d < 10
    ensures DigitValue(c, 10) == d
  {
    ('0' as int + d) as char
  }

  /** The decimal numeral of `n`, without leading zeros. */
  function NatToString(n: nat): (s: string)
    ensures |s| > 0
    ensures forall i :: 0 <= i < |s| ==> IsDigit(s[i], 10)
    ensures |s| > 1 ==> s[0] != '0'
    ensures DigitsValue(s, 10) == n
  {
    if n < 10 then [DigitChar(n)]
    else
      var p := NatToString(n / 10);
      var s := p + [DigitChar(n % 10)];
      assert s[..|s| - 1] == p;
      s
  }

  /** `String(n)` for an integer `n`: a minus sign, then the decimal numeral of its magnitude. */
  function IntToString(n: int): string {
    if n < 0 then "-" + NatToString(-n) else NatToString(n)
  }

  /** Reading a decimal numeral back: an optional minus sign and at least one digit, nothing else. */
  function ParseDecimal(s: string): Option<int> {
    var negative := |s| > 0 && s[0] == '-';
    var ds := if negative then s[1..] else s;
    if |ds| > 0 && DigitRun(ds, 10) == |ds| then
      var m: int := DigitsValue(ds, 10);
      Some(if negative then -m else m)
    else None
  }

  lemma DecimalRoundTrip(n: int)
    ensures ParseDecimal(IntToString(n)) == Some(n)
  {
    var s := IntToString(n);
    var ds := NatToString(if n < 0 then -n else n);
    if n < 0 {
      assert s[1..] == ds;
    }
    assert DigitRun(ds, 10) == |ds|;
  }

  /** `parseInt` reads back the numeral of any integer, and stops at the first
      character that cannot continue it: `parseInt("25abc")` is 25. (For 0 the
      next character must not be `x` or `X`, which would start a hexadecimal
      prefix.) */
  lemma ParseIntOfNumeral(n: int, rest: string)
    requires |rest| > 0 ==> !IsDigit(rest[0], 10)
    requires n == 0 && |rest| > 0 ==> rest[0] != 'x' && rest[0] != 'X'
    ensures ParseInt(IntToString(n) + rest) == Num(n)
  {
    var m: nat := if n < 0 then -n else n;
    NumeralHasNoLeadingSpace(n, rest);
    SignOfNumeral(n, rest);
    MagnitudeOfNumeral(m, rest);
  }

  lemma NumeralHasNoLeadingSpace(n: int, rest: string)
    ensures TrimStart(IntToString(n) + rest) == IntToString(n) + rest
  {
    var s := IntToString(n) + rest;
    assert s[0] == '-' || '0' <= s[0] <= '9';
    assert !IsSpace(s[0]);
  }

  lemma SignOfNumeral(n: int, rest: string)
    ensures Sign(IntToString(n) + rest) == (n < 0, NatToString(if n < 0 then -n else n) + rest)
  {
    var ds := NatToString(if n < 0 then -n else n);
    NumeralStartsWithDigit(if n < 0 then -n else n);
    if n < 0 {
      assert IntToString(n) + rest == "-" + (ds + rest);
      SignOfMinus(ds + rest);
    } else {
      assert IntToString(n) + rest == ds + rest;
      SignOfDigit(ds + rest);
    }
  }

  lemma SignOfMinus(u: string)
    ensures Sign("-" + u) == (true, u)
  {
    assert ("-" + u)[1..] == u;
  }

  lemma SignOfDigit(u: string)
    requires |u| > 0 && '0' <= u[0] <= '9'
    ensures Sign(u) == (false, u)
  {
  }

  /** A numeral starts with a decimal digit, so never with a sign. */
  lemma NumeralStartsWithDigit(m: nat)
    ensures '0' <= NatToString(m)[0] <= '9'
  {
    var c := NatToString(m)[0];
    assert IsDigit(c, 10);
  }

  lemma MagnitudeOfNumeral(m: nat, rest: string)
    requires |rest| > 0 ==> !IsDigit(rest[0], 10)
    requires m == 0 && |rest| > 0 ==> rest[0] != 'x' && rest[0] != 'X'
    ensures Magnitude(NatToString(m) + rest) == Some(m)
  {
    var ds := NatToString(m);
    var u := ds + rest;
    assert !(|u| >= 2 && u[0] == '0' && (u[1] == 'x' || u[1] == 'X')) by {
      if |ds| == 1 && |rest| > 0 {
        assert u[1] == rest[0];
      }
    }
    assert forall i :: 0 <= i < |ds| ==> u[i] == ds[i];
    assert |rest| > 0 ==> u[|ds|] == rest[0];
    var k := DigitRun(u, 10);
    assert k == |ds|;
    assert u[..k] == ds;
  }

  /** Leading white space never changes what `parseInt` reads. */
  lemma {:induction false} ParseIntSkipsSpace(w: string, s: string)
    requires forall i :: 0 <= i < |w| ==> IsSpace(w[i])
    ensures ParseInt(w + s) == ParseInt(s)
  {
    TrimStartSkipsSpace(w, s);
  }

  lemma {:induction false} TrimStartSkipsSpace(w: string, s: string)
    requires forall i :: 0 <= i < |w| ==> IsSpace(w[i])
    ensures TrimStart(w + s) == TrimStart(s)
  {
    if |w| > 0 {
      assert (w + s)[1..] == w[1..] + s;
      TrimStartSkipsSpace(w[1..], s);
    } else {
      assert w + s == s;
    }
  }
}

=== FILE: listing.dfy ===
/** The request every list handler (users, user, projects) builds from its
    query: the search pattern, the offset, the WHERE clause with one LIKE
    placeholder per searched column, and the two parameter vectors — one
    for the page statement and one for the count statement. */
module Listing {
  import opened Common
  import opened JsNumber
  import opened Paging
  import opened SqlLike

  /** The query parameters a list handler reads (`orderby` and `sort` are
      interpolated into the statement text and are not modelled). */
  datatype ListQuery = ListQuery(limit: Query, page: Query, search: Query)

  /** What a list handler hands to the database. */
  datatype ListRequest = ListRequest(
    limit: QueryInt,
    page: QueryInt,
    offset: Option<int>,
    pattern: string,
    pageSql: seq<Token>,
    pageParams: seq<Param>,
    countSql: seq<Token>,
    countParams: seq<Param>)

  /** `c1 LIKE ? OR c2 LIKE ? OR ...` */
  function LikeAny(columns: seq<string>): (ts: seq<Token>)
    ensures Holes(ts) == |columns|
  {
    if |columns| == 0 then []
    else
      var head := [Sql(columns[0] + " LIKE "), Hole];
      var tail := if |columns| == 1 then [] else [Sql(" OR ")] + LikeAny(columns[1..]);
      HolesAppend(head, tail);
      HolesAppend([Sql(" OR ")], LikeAny(columns[1..]));
      head + tail
  }

  /** `WHERE <deletedAt> IS NULL AND (c1 LIKE ? OR ...)` */
  function SearchWhere(deletedAt: string, columns: seq<string>): (ts: seq<Token>)
    ensures Holes(ts) == |columns|
  {
    var open := [Sql("WHERE " + deletedAt + " IS NULL AND (")];
    HolesAppend(open, LikeAny(columns));
    HolesAppend(open + LikeAny(columns), [Sql(")")]);
    open + LikeAny(columns) + [Sql(")")]
  }

  /** Builds the request the way the list handlers do. */
  function BuildListRequest(q: ListQuery, deletedAt: string, columns: seq<string>): (r: ListRequest)
    ensures r.limit == ReadQueryInt(q.limit) && r.page == ReadQueryInt(q.page)
    ensures r.offset == Offset(r.limit, r.page)
    ensures r.pattern == SearchPattern(Or(q.search, ""))
    ensures r.countParams == Repeat(Text(r.pattern), |columns|)
    ensures AtLeastZero(r.limit) ==> r.pageParams == r.countParams + [LimitParam(r.limit), OffsetParam(r.offset)]
    ensures !AtLeastZero(r.limit) ==> r.pageParams == r.countParams
    ensures Holes(r.pageSql) == |r.pageParams|
    ensures Holes(r.countSql) == |r.countParams|
  {
    var limit := ReadQueryInt(q.limit);
    var page := ReadQueryInt(q.page);
    var offset := Offset(limit, page);
    var pattern := SearchPattern(Or(q.search, ""));
    var where := SearchWhere(deletedAt, columns);
    var patterns := Repeat(Text(pattern), |columns|);
    var paginated := AtLeastZero(limit);
    var pageSql := if paginated then where + LimitClause() else where;
    var pageParams := if paginated then patterns + [LimitParam(limit), OffsetParam(offset)] else patterns;
    HolesAppend(where, LimitClause());
    ListRequest(limit, page, offset, pattern, pageSql, pageParams, where, patterns)
  }

  /** The OR of `value LIKE ?` over the values of the searched columns, the
      placeholders bound in order from `params`; a NULL value never matches.
      None when a placeholder is left unbound or bound to a non-string. */
  function AnyLike(values: seq<Option<string>>, params: seq<Param>): Option<bool> {
    if |values| == 0 then Some(false)
    else if |params| == 0 || !params[0].Text? then None
    else
      match AnyLike(values[1..], params[1..])
      case None => None
      case Some(rest) => Some((values[0].Some? && Like(values[0].value, params[0].s)) || rest)
  }

  /** The search WHERE clause evaluated on one joined row. */
  function EvalSearch(deleted: bool, values: seq<Option<string>>, params: seq<Param>): Option<bool> {
    match AnyLike(values, params)
    case None => None
    case Some(any) => Some(!deleted && any)
  }

  /** Which rows a search lists: not soft-deleted, and some searched value matches the pattern. */
  predicate Listed(deleted: bool, values: seq<Option<string>>, pattern: string) {
    !deleted && exists i | 0 <= i < |values| :: values[i].Some? && Like(values[i].value, pattern)
  }

  lemma {:induction false} AnyLikeWithPattern(values: seq<Option<string>>, pattern: string, extra: seq<Param>)
    ensures AnyLike(values, Repeat(Text(pattern), |values|) + extra)
         == Some(exists i | 0 <= i < |values| :: values[i].Some? && Like(values[i].value, pattern))
  {
    var params := Repeat(Text(pattern), |values|) + extra;
    if |values| > 0 {
      assert params[1..] == Repeat(Text(pattern), |values| - 1) + extra;
      AnyLikeWithPattern(values[1..], pattern, extra);
      assert forall i :: 1 <= i < |values| ==> values[1..][i - 1] == values[i];
    }
  }

  /** The page statement and the count statement select the same rows — the
      search placeholders of both are bound to the pattern, and the page
      statement's extra LIMIT and OFFSET bindings come after them — and those
      rows are exactly the listed ones. */
  lemma PageAndCountSelectListed(q: ListQuery, deletedAt: string, columns: seq<string>,
                                 deleted: bool, values: seq<Option<string>>)
    requires |values| == |columns|
    ensures var r := BuildListRequest(q, deletedAt, columns);
            && EvalSearch(deleted, values, r.pageParams) == Some(Listed(deleted, values, r.pattern))
            && EvalSearch(deleted, values, r.countParams) == Some(Listed(deleted, values, r.pattern))
  {
    var r := BuildListRequest(q, deletedAt, columns);
    AnyLikeWithPattern(values, r.pattern, []);
    assert r.countParams + [] == r.countParams;
    if AtLeastZero(r.limit) {
      AnyLikeWithPattern(values, r.pattern, [LimitParam(r.limit), OffsetParam(r.offset)]);
    }
  }
}

=== FILE: paging.dfy ===
/** The pagination rule shared by every list handler: the offset computed
    from `limit` and `page`, and the values bound to `LIMIT ? OFFSET ?`. */
module Paging {
  import opened Common
  import opened JsNumber

  /** `limit && page ? (page - 1) * limit : null`: for a positive limit and
      page, the offset skips the rows of the pages before, and the page ends
      at row `page * limit`. */
  function Offset(limit: QueryInt, page: QueryInt): (r: Option<int>)
    ensures r.Some? <==> limit.Num? && limit.n != 0 && page.Num? && page.n != 0
    ensures r.Some? && limit.n > 0 && page.n > 0 ==> 0 <= r.value && r.value + limit.n == page.n * limit.n
  {
    if Truthy(limit) && Truthy(page) then Some((page.n - 1) * limit.n) else None
  }

  /** The offset exists exactly when both values are truthy; then consecutive
      pages are consecutive windows of `limit` rows, the first one starting at row 0. */
  lemma OffsetWindows(limit: QueryInt, page: QueryInt)
    ensures Offset(limit, page).Some? <==> limit.Num? && limit.n != 0 && page.Num? && page.n != 0
    ensures limit.Num? && limit.n != 0 && page == Num(1) ==> Offset(limit, page) == Some(0)
    ensures limit.Num? && limit.n != 0 && page.Num? && page.n != 0 && page.n != -1 ==>
              Offset(limit, Num(page.n + 1)).value == Offset(limit, page).value + limit.n
  {
    if limit.Num? && page.Num? {
      assert (page.n + 1 - 1) * limit.n == (page.n - 1) * limit.n + limit.n;
    }
  }

  /** The value bound to `LIMIT ?`: the parsed limit as it is (null and NaN included). */
  function LimitParam(limit: QueryInt): (p: Param)
    ensures limit.Absent? <==> p.Null?
    ensures limit.NaN? <==> p.NotANumber?
    ensures limit.Num? ==> p == Number(limit.n)
  {
    match limit
    case Absent => Null
    case NaN => NotANumber
    case Num(n) => Number(n)
  }

  /** The value bound to `OFFSET ?`. */
  function OffsetParam(offset: Option<int>): (p: Param)
    ensures offset.None? <==> p.Null?
    ensures offset.Some? ==> p == Number(offset.value)
  {
    match offset
    case None => Null
    case Some(o) => Number(o)
  }

  /** The ` LIMIT ? OFFSET ?` suffix of a paginated statement. */
  function LimitClause(): (ts: seq<Token>)
    ensures Holes(ts) == 2
  {
    [Sql(" LIMIT "), Hole, Sql(" OFFSET "), Hole]
  }
}

=== FILE: projects.dfy ===
/** The projects list handler over the `projects` table. */
module Projects {
  import opened Common
  import opened JsNumber
  import opened Paging
  import opened SqlLike
  import opened Listing
  import Users

  /** A row of the `projects` table, as far as the handlers read it. */
  datatype Project = Project(
    projectId: int,
    projectName: string,
    clientName: Option<string>,
    managerId: Option<int>,
    employeeId: Option<int>,
    status: string,
    createdBy: Option<int>,
    deletedAt: Option<int>)

  /** A project joined with the names of its creator, manager and employee. */
  datatype ProjectRow = ProjectRow(
    project: Project,
    createdName: Option<string>,
    managerName: Option<string>,
    employeeName: Option<string>)

  /** Every project joined with the three user names, in table order. */
  function Join(projects: seq<Project>, users: seq<Users.User>): (rows: seq<ProjectRow>)
    ensures |rows| == |projects|
    ensures forall i :: 0 <= i < |projects| ==> rows[i].project == projects[i]
    ensures forall i :: 0 <= i < |projects| ==> rows[i].createdName == Users.NameOf(users, projects[i].createdBy)
    ensures forall i :: 0 <= i < |projects| ==> rows[i].managerName == Users.NameOf(users, projects[i].managerId)
    ensures forall i :: 0 <= i < |projects| ==> rows[i].employeeName == Users.NameOf(users, projects[i].employeeId)
    ensures forall row :: row in rows ==> row.project in projects
  {
    seq(|projects|, i requires 0 <= i < |projects| =>
      var p := projects[i];
      ProjectRow(p, Users.NameOf(users, p.createdBy), Users.NameOf(users, p.managerId), Users.NameOf(users, p.employeeId)))
  }

  /** The searched columns, in placeholder order. */
  const Columns: seq<string> := ["p.projectName", "u.name", "u2.name", "u3.name"]

  /** The values of the searched columns of a joined row, in placeholder order. */
  function SearchValues(row: ProjectRow): seq<Option<string>> {
    [Some(row.project.projectName), row.createdName, row.managerName, row.employeeName]
  }

  /** Which joined rows the projects list shows. */
  predicate IsListed(row: ProjectRow, pattern: string) {
    Listed(row.project.deletedAt.Some?, SearchValues(row), pattern)
  }

  /** `readProjects`: the request sent to the database. */
  function ReadProjects(q: ListQuery): (r: ListRequest)
    ensures r.pattern == "%" + Or(q.search, "") + "%"
    ensures r.offset.Some? <==> Truthy(ReadQueryInt(q.limit)) && Truthy(ReadQueryInt(q.page))
    ensures r.offset.Some? ==> r.offset.value == (ReadQueryInt(q.page).n - 1) * ReadQueryInt(q.limit).n
    ensures |r.countParams| == 4 && forall i :: 0 <= i < 4 ==> r.countParams[i] == Text(r.pattern)
    ensures AtLeastZero(ReadQueryInt(q.limit)) ==>
              && |r.pageParams| == 6 && r.pageParams[..4] == r.countParams
              && r.pageParams[4] == LimitParam(ReadQueryInt(q.limit))
              && r.pageParams[5] == OffsetParam(r.offset)
    ensures !AtLeastZero(ReadQueryInt(q.limit)) ==> r.pageParams == r.countParams
    ensures Holes(r.pageSql) == |r.pageParams| && Holes(r.countSql) == 4
  {
    BuildListRequest(q, "p.deletedAt", Columns)
  }

  /** The rows the projects WHERE clause selects from the joined table, in table order. */
  function ListProjects(projects: seq<Project>, users: seq<Users.User>, pattern: string): (rows: seq<ProjectRow>)
    ensures forall row :: row in rows <==> row in Join(projects, users) && IsListed(row, pattern)
    ensures forall row :: row in rows ==> row.project in projects && row.project.deletedAt.None?
    ensures forall row :: multiset(rows)[row] == if IsListed(row, pattern) then multiset(Join(projects, users))[row] else 0
  {
    Filter(Join(projects, users), (row: ProjectRow) => IsListed(row, pattern))
  }

  /** Both statements of `readProjects` select exactly the listed rows. */
  lemma ReadProjectsSelectsListed(q: ListQuery, row: ProjectRow)
    ensures var r := ReadProjects(q);
            && EvalSearch(row.project.deletedAt.Some?, SearchValues(row), r.pageParams) == Some(IsListed(row, r.pattern))
            && EvalSearch(row.project.deletedAt.Some?, SearchValues(row), r.countParams) == Some(IsListed(row, r.pattern))
  {
    PageAndCountSelectListed(q, "p.deletedAt", Columns, row.project.deletedAt.Some?, SearchValues(row));
  }

  /** A search text without LIKE wildcards lists exactly the non-deleted
      projects whose name, creator, manager or employee name contains it. */
  lemma SearchByContainment(row: ProjectRow, search: string)
    requires HasNoWildcards(search)
    ensures IsListed(row, SearchPattern(search)) <==>
              && row.project.deletedAt.None?
              && (|| Contains(row.project.projectName, search)
                  || (row.createdName.Some? && Contains(row.createdName.value, search))
                  || (row.managerName.Some? && Contains(row.managerName.value, search))
                  || (row.employeeName.Some? && Contains(row.employeeName.value, search)))
  {
    var vs := SearchValues(row);
    SearchFindsContaining(row.project.projectName, search);
    if row.createdName.Some? {
      SearchFindsContaining(row.createdName.value, search);
    }
    if row.managerName.Some? {
      SearchFindsContaining(row.managerName.value, search);
    }
    if row.employeeName.Some? {
      SearchFindsContaining(row.employeeName.value, search);
    }
    assert vs[0] == Some(row.project.projectName) && vs[1] == row.createdName;
    assert vs[2] == row.managerName && vs[3] == row.employeeName;
  }
}

=== FILE: sqllike.dfy ===
/** MySQL's `value LIKE pattern` with the default escape character: `%`
    matches any run of characters, `_` any single character, and a backslash
    makes the next character literal. The list handlers search with the
    pattern `%` + search + `%`. */
module SqlLike {

  /** Characters with a meaning of their own inside a LIKE pattern. */
  predicate IsWildcard(c: char) {
    c == '%' || c == '_' || c == '\\'
  }

  predicate HasNoWildcards(s: string) {
    forall i :: 0 <= i < |s| ==> !IsWildcard(s[i])
  }

  /** `v LIKE p`, compared character by character. */
  function Like(v: string, p: string): bool
    decreases |v| + |p|
  {
    if |p| == 0 then |v| == 0
    else if p[0] == '%' then Like(v, p[1..]) || (|v| > 0 && Like(v[1..], p))
    else if p[0] == '_' then |v| > 0 && Like(v[1..], p[1..])
    else if p[0] == '\\' && |p| > 1 then |v| > 0 && v[0] == p[1] && Like(v[1..], p[2..])
    else |v| > 0 && v[0] == p[0] && Like(v[1..], p[1..])
  }

  /** `s` occurs in `v` starting at index `k`. */
  predicate OccursAt(v: string, s: string, k: int) {
    0 <= k && k + |s| <= |v| && v[k..k + |s|] == s
  }

  /** `s` occurs in `v` as a contiguous block. */
  ghost predicate Contains(v: string, s: string) {
    exists k :: OccursAt(v, s, k)
  }

  /** The suffix of `v` from index `k` matches `p`. */
  predicate SuffixLike(v: string, p: string, k: int) {
    0 <= k <= |v| && Like(v[k..], p)
  }

  /** The pattern the list handlers build: `` `%${search}%` ``. */
  function SearchPattern(search: string): (p: string)
    ensures |p| == |search| + 2 && p[0] == '%' && p[|p| - 1] == '%'
    ensures p[1..|p| - 1] == search
  {
    "%" + search + "%"
  }

  /** A literal prefix matches itself and nothing else. */
  lemma {:induction false} LikeLiteralPrefix(v: string, s: string, rest: string)
    requires HasNoWildcards(s)
    ensures Like(v, s + rest) <==> |s| <= |v| && v[..|s|] == s && Like(v[|s|..], rest)
    decreases |s|
  {
    if |s| > 0 {
      assert (s + rest)[0] == s[0] && !IsWildcard(s[0]);
      assert (s + rest)[1..] == s[1..] + rest;
      if |v| > 0 {
        LikeLiteralPrefix(v[1..], s[1..], rest);
        if |s| <= |v| {
          assert v[1..][|s| - 1..] == v[|s|..];
          assert v[..|s|] == [v[0]] + v[1..][..|s| - 1];
        }
      }
    } else {
      assert s + rest == rest;
    }
  }

  /** A leading `%` tries every suffix of the value. */
  lemma {:induction false} LikeLeadingPercent(v: string, p: string)
    ensures Like(v, "%" + p) <==> exists k :: SuffixLike(v, p, k)
    decreases |v|
  {
    var q := "%" + p;
    assert q[0] == '%' && q[1..] == p;
    assert v[0..] == v;
    if |v| > 0 {
      LikeLeadingPercent(v[1..], p);
      assert Like(v, q) == (Like(v, p) || Like(v[1..], q));
      if Like(v, p) {
        assert SuffixLike(v, p, 0);
      } else if Like(v, q) {
        var j :| SuffixLike(v[1..], p, j);
        assert v[1..][j..] == v[j + 1..];
        assert SuffixLike(v, p, j + 1);
      }
      if exists k :: SuffixLike(v, p, k) {
        var k :| SuffixLike(v, p, k);
        if k > 0 {
          assert v[1..][k - 1..] == v[k..];
          assert SuffixLike(v[1..], p, k - 1);
          assert Like(v[1..], q);
        } else {
          assert Like(v, p);
        }
      }
    } else {
      assert Like(v, q) == Like(v, p);
      if Like(v, p) {
        assert SuffixLike(v, p, 0);
      }
      if exists k :: SuffixLike(v, p, k) {
        var k :| SuffixLike(v, p, k);
        assert k == 0;
      }
    }
  }

  /** A lone `%` matches every value. */
  lemma {:induction false} LikePercentMatchesAll(v: string)
    ensures Like(v, "%")
    decreases |v|
  {
    assert "%"[1..] == "";
    if |v| > 0 {
      LikePercentMatchesAll(v[1..]);
    }
  }

  /** Searching for a text without wildcards finds exactly the values that
      contain it; the empty search finds every value. */
  lemma SearchFindsContaining(v: string, search: string)
    requires HasNoWildcards(search)
    ensures Like(v, SearchPattern(search)) <==> Contains(v, search)
  {
    var p := SearchPattern(search);
    assert p == "%" + (search + "%");
    LikeLeadingPercent(v, search + "%");
    if Like(v, p) {
      var k :| SuffixLike(v, search + "%", k);
      LikeLiteralPrefix(v[k..], search, "%");
      assert v[k..][..|search|] == v[k..k + |search|];
      assert OccursAt(v, search, k);
    }
    if Contains(v, search) {
      var k :| OccursAt(v, search, k);
      assert v[k..][..|search|] == v[k..k + |search|];
      LikePercentMatchesAll(v[k..][|search|..]);
      LikeLiteralPrefix(v[k..], search, "%");
      assert SuffixLike(v, search + "%", k);
    }
  }

  /** The empty search (the default) matches every value. */
  lemma EmptySearchMatchesAll(v: string)
    ensures Like(v, SearchPattern(""))
  {
    SearchFindsContaining(v, "");
    assert OccursAt(v, "", 0);
  }
}

=== FILE: timesheet.dfy ===
/** The timesheet read handler: the filter conditions and their parameter
    list, pagination, and the hours display table applied to every row and to
    the summed total. Hours are integer hundredths of an hour (1.25 is 125). */
module Timesheets {
  import opened Common
  import opened JsNumber
  import opened Paging

  /** The query parameters the handler reads. */
  datatype TimesheetQuery = TimesheetQuery(
    limit: Query,
    page: Query,
    orderby: Query,
    sort: Query,
    fromDate: Query,
    toDate: Query,
    name: Query,
    projectName: Query)

  /** A timesheet joined with the names of its user and its project.
      `workDate` is a day number; `hoursWorked` is in hundredths of an hour;
      `deletedAt` is the soft-deletion mark the other tables also carry. */
  datatype TimesheetRow = TimesheetRow(
    timesheetId: int,
    projectId: int,
    userId: int,
    task: string,
    hoursWorked: int,
    workDate: int,
    userName: Option<string>,
    projectName: Option<string>,
    deletedAt: Option<int>)

  /** The conditions the handler can put in its WHERE clause. */
  datatype Condition = Always | NameIs | ProjectNameIs | WorkDateBetween | WorkDateFrom | WorkDateTo

  /** The number of placeholders of a condition. */
  function Arity(c: Condition): nat {
    match c
    case Always => 0
    case WorkDateBetween => 2
    case _ => 1
  }

  function ConditionSql(c: Condition): (ts: seq<Token>)
    ensures Holes(ts) == Arity(c)
  {
    match c
    case Always => [Sql("1=1")]
    case NameIs => [Sql("ur.name = "), Hole]
    case ProjectNameIs => [Sql("p.projectName = "), Hole]
    case WorkDateBetween => [Sql("t.workDate BETWEEN "), Hole, Sql(" AND "), Hole]
    case WorkDateFrom => [Sql("t.workDate >= "), Hole]
    case WorkDateTo => [Sql("t.workDate <= "), Hole]
  }

  /** The number of placeholders across a list of conditions. */
  function Placeholders(cs: seq<Condition>): nat {
    if |cs| == 0 then 0 else Arity(cs[0]) + Placeholders(cs[1..])
  }

  lemma {:induction false} PlaceholdersAppend(a: seq<Condition>, b: seq<Condition>)
    ensures Placeholders(a + b) == Placeholders(a) + Placeholders(b)
  {
    if |a| == 0 {
      assert a + b == b;
    } else {
      assert (a + b)[1..] == a[1..] + b;
      PlaceholdersAppend(a[1..], b);
    }
  }

  /** `c1 AND c2 AND ...` */
  function JoinAnd(cs: seq<Condition>): (ts: seq<Token>)
    ensures Holes(ts) == Placeholders(cs)
  {
    if |cs| == 0 then []
    else if |cs| == 1 then ConditionSql(cs[0])
    else
      HolesAppend(ConditionSql(cs[0]), [Sql(" AND ")]);
      HolesAppend(ConditionSql(cs[0]) + [Sql(" AND ")], JoinAnd(cs[1..]));
      ConditionSql(cs[0]) + [Sql(" AND ")] + JoinAnd(cs[1..])
  }

  /** `WHERE c1 AND c2 AND ...` */
  function WhereSql(cs: seq<Condition>): (ts: seq<Token>)
    ensures Holes(ts) == Placeholders(cs)
  {
    HolesAppend([Sql("WHERE ")], JoinAnd(cs));
    [Sql("WHERE ")] + JoinAnd(cs)
  }

  /** Conditions with the parameters bound to their placeholders, in order. */
  datatype Clauses = Clauses(conditions: seq<Condition>, params: seq<Param>)

  predicate Aligned(c: Clauses) {
    Placeholders(c.conditions) == |c.params|
  }

  function Then(a: Clauses, b: Clauses): (r: Clauses)
    ensures Aligned(a) && Aligned(b) ==> Aligned(r)
  {
    PlaceholdersAppend(a.conditions, b.conditions);
    Clauses(a.conditions + b.conditions, a.params + b.params)
  }

  /** `if (name) { ... push('ur.name = ?') ... push(name) }` */
  function NameFilter(name: Option<string>): (f: Clauses)
    ensures Aligned(f) && forall c :: c in f.conditions ==> !IsDateCondition(c)
  {
    if name.Some? then Clauses([NameIs], [Text(name.value)]) else Clauses([], [])
  }

  /** `if (projectName) { ... push('p.projectName = ?') ... push(projectName) }` */
  function ProjectFilter(projectName: Option<string>): (f: Clauses)
    ensures Aligned(f) && forall c :: c in f.conditions ==> !IsDateCondition(c)
  {
    if projectName.Some? then Clauses([ProjectNameIs], [Text(projectName.value)]) else Clauses([], [])
  }

  /** The date range: BETWEEN when both ends are given, a one-sided bound when one is, nothing otherwise. */
  function DateFilter(fromDate: Option<string>, toDate: Option<string>): (f: Clauses)
    ensures Aligned(f) && |f.conditions| <= 1 && forall c :: c in f.conditions ==> IsDateCondition(c)
    ensures |f.conditions| == 0 <==> fromDate.None? && toDate.None?
  {
    if fromDate.Some? && toDate.Some? then
      Clauses([WorkDateBetween], [Text(fromDate.value), Text(toDate.value)])
    else if fromDate.Some? then Clauses([WorkDateFrom], [Text(fromDate.value)])
    else if toDate.Some? then Clauses([WorkDateTo], [Text(toDate.value)])
    else Clauses([], [])
  }

  /** The conditions before the date range: `1=1`, then the user and project names. */
  function FrontFilters(q: TimesheetQuery): (f: Clauses)
    ensures Aligned(f) && |f.conditions| > 0 && f.conditions[0] == Always
    ensures forall c :: c in f.conditions ==> !IsDateCondition(c)
  {
    Then(Then(Clauses([Always], []), NameFilter(OrNull(q.name))), ProjectFilter(OrNull(q.projectName)))
  }

  /** The whole WHERE clause. */
  function Filters(q: TimesheetQuery): (f: Clauses)
    ensures Aligned(f) && |f.conditions| > 0 && f.conditions[0] == Always
  {
    Then(FrontFilters(q), DateFilter(OrNull(q.fromDate), OrNull(q.toDate)))
  }

  /** The conditions end with the date condition the query asks for — BETWEEN
      with both dates, `>=` with only the start, `<=` with only the end — its
      dates are the last values bound, and there is no other date condition. */
  predicate DateRangeLast(q: TimesheetQuery, cs: seq<Condition>, ps: seq<Param>) {
    && (Present(q.fromDate) && Present(q.toDate) ==>
          && |cs| > 0 && cs[|cs| - 1] == WorkDateBetween
          && |ps| >= 2 && ps[|ps| - 2..] == [Text(q.fromDate.value), Text(q.toDate.value)])
    && (Present(q.fromDate) && !Present(q.toDate) ==>
          && |cs| > 0 && cs[|cs| - 1] == WorkDateFrom
          && |ps| >= 1 && ps[|ps| - 1] == Text(q.fromDate.value))
    && (!Present(q.fromDate) && Present(q.toDate) ==>
          && |cs| > 0 && cs[|cs| - 1] == WorkDateTo
          && |ps| >= 1 && ps[|ps| - 1] == Text(q.toDate.value))
    && DateConditions(cs) == (if Present(q.fromDate) || Present(q.toDate) then 1 else 0)
  }

  /** The WHERE clause ends with the requested date range. */
  lemma DateCases(q: TimesheetQuery)
    ensures DateRangeLast(q, Filters(q).conditions, Filters(q).params)
  {
    var front := FrontFilters(q);
    var d := DateFilter(OrNull(q.fromDate), OrNull(q.toDate));
    assert Filters(q) == Then(front, d);
    DateConditionsAppend(front.conditions, d.conditions);
    NoDateConditions(front.conditions);
    if |d.conditions| == 1 {
      assert DateConditions(d.conditions) == 1 by {
        assert IsDateCondition(d.conditions[0]);
      }
      LastOfAppend(front.conditions, d.conditions);
      LastOfAppend(front.params, d.params);
      if Present(q.fromDate) && Present(q.toDate) {
        var ps := Filters(q).params;
        SuffixOfAppend(front.params, d.params);
        assert |ps| - 2 == |front.params|;
        assert ps[|ps| - 2..] == d.params == [Text(q.fromDate.value), Text(q.toDate.value)];
      }
    }
  }

  /** What the handler hands to the database. `params` is the list bound to
      the page statement; the count and sum statements are handed the same
      list, and bind their placeholders from its front. */
  datatype TimesheetRequest = TimesheetRequest(
    limit: QueryInt,
    page: QueryInt,
    offset: Option<int>,
    orderBy: string,
    sort: string,
    conditions: seq<Condition>,
    filterParams: seq<Param>,
    params: seq<Param>,
    pageSql: seq<Token>,
    whereSql: seq<Token>)

  predicate IsDateCondition(c: Condition) {
    c == WorkDateBetween || c == WorkDateFrom || c == WorkDateTo
  }

  /** `readTimesheets`: the request sent to the database. */
  function ReadTimesheets(q: TimesheetQuery): (r: TimesheetRequest)
    ensures |r.conditions| > 0 && r.conditions[0] == Always
    ensures Placeholders(r.conditions) == |r.filterParams|
    ensures Holes(r.whereSql) == |r.filterParams| && Holes(r.pageSql) == |r.params|
    ensures DateRangeLast(q, r.conditions, r.filterParams)
    ensures r.limit == ReadQueryInt(q.limit) && r.page == ReadQueryInt(q.page)
    ensures r.offset == Offset(r.limit, r.page)
    ensures !Present(q.limit) ==> r.params == r.filterParams
    ensures Present(q.limit) ==> r.params == r.filterParams + [LimitParam(r.limit), OffsetParam(r.offset)]
    ensures r.orderBy == (if Present(q.orderby) then q.orderby.value else "t.workDate")
    ensures r.sort == (if Present(q.sort) then q.sort.value else "DESC")
  {
    var limit := ReadQueryInt(q.limit);
    var page := ReadQueryInt(q.page);
    var offset := Offset(limit, page);
    var f := Filters(q);
    var params := if limit != Absent then f.params + [LimitParam(limit), OffsetParam(offset)] else f.params;
    var whereSql := WhereSql(f.conditions);
    var pageSql := if limit != Absent then whereSql + LimitClause() else whereSql;
    HolesAppend(whereSql, LimitClause());
    DateCases(q);
    TimesheetRequest(limit, page, offset, Or(q.orderby, "t.workDate"), Or(q.sort, "DESC"),
                     f.conditions, f.params, params, pageSql, whereSql)
  }

  /** The number of date conditions in a list. */
  function DateConditions(cs: seq<Condition>): nat {
    if |cs| == 0 then 0 else (if IsDateCondition(cs[0]) then 1 else 0) + DateConditions(cs[1..])
  }

  lemma {:induction false} DateConditionsAppend(a: seq<Condition>, b: seq<Condition>)
    ensures DateConditions(a + b) == DateConditions(a) + DateConditions(b)
  {
    if |a| == 0 {
      assert a + b == b;
    } else {
      assert (a + b)[1..] == a[1..] + b;
      DateConditionsAppend(a[1..], b);
    }
  }

  lemma {:induction false} NoDateConditions(cs: seq<Condition>)
    requires forall c :: c in cs ==> !IsDateCondition(c)
    ensures DateConditions(cs) == 0
  {
    if |cs| > 0 {
      assert cs[0] in cs;
      assert forall c :: c in cs[1..] ==> c in cs;
      NoDateConditions(cs[1..]);
    }
  }

  // ---------------------------------------------------------------------------
  // What the WHERE clause selects

  /** Both results known: their conjunction; otherwise the statement fails. */
  function And(x: Option<bool>, y: Option<bool>): Option<bool> {
    if x.Some? && y.Some? then Some(x.value && y.value) else None
  }

  /** One condition evaluated on a row with its placeholders bound to `args`.
      `asDate` is the database's conversion of a date parameter to a day number.
      None when a placeholder is bound to a value of the wrong kind. */
  function Holds(c: Condition, args: seq<Param>, row: TimesheetRow, asDate: string -> int): Option<bool>
    requires |args| == Arity(c)
  {
    match c
    case Always => Some(true)
    case NameIs =>
      if args[0].Text? then Some(row.userName == Some(args[0].s)) else None
    case ProjectNameIs =>
      if args[0].Text? then Some(row.projectName == Some(args[0].s)) else None
    case WorkDateBetween =>
      if args[0].Text? && args[1].Text? then Some(asDate(args[0].s) <= row.workDate <= asDate(args[1].s)) else None
    case WorkDateFrom =>
      if args[0].Text? then Some(asDate(args[0].s) <= row.workDate) else None
    case WorkDateTo =>
      if args[0].Text? then Some(row.workDate <= asDate(args[0].s)) else None
  }

  /** The AND of the conditions on a row, placeholders bound in order from
      `params`; values left over after the last placeholder are ignored, as the
      driver does. None when a placeholder is left unbound. */
  function EvalWhere(cs: seq<Condition>, params: seq<Param>, row: TimesheetRow, asDate: string -> int): Option<bool> {
    if |cs| == 0 then Some(true)
    else
      var k := Arity(cs[0]);
      if |params| < k then None
      else And(Holds(cs[0], params[..k], row, asDate), EvalWhere(cs[1..], params[k..], row, asDate))
  }

  /** Which rows the filter is meant to select, stated directly. */
  predicate Selected(q: TimesheetQuery, row: TimesheetRow, asDate: string -> int) {
    && (Present(q.name) ==> row.userName == Some(q.name.value))
    && (Present(q.projectName) ==> row.projectName == Some(q.projectName.value))
    && (Present(q.fromDate) ==> asDate(q.fromDate.value) <= row.workDate)
    && (Present(q.toDate) ==> row.workDate <= asDate(q.toDate.value))
  }

  /** Evaluating a concatenation of conditions: the first part takes exactly
      its own values, the second part the values after them. */
  lemma {:induction false} EvalThen(a: Clauses, cs: seq<Condition>, ps: seq<Param>, row: TimesheetRow, asDate: string -> int)
    requires Aligned(a)
    ensures EvalWhere(a.conditions + cs, a.params + ps, row, asDate)
         == And(EvalWhere(a.conditions, a.params, row, asDate), EvalWhere(cs, ps, row, asDate))
    decreases |a.conditions|
  {
    var all := a.conditions + cs;
    var vs := a.params + ps;
    if |a.conditions| == 0 {
      assert all == cs;
      assert vs == ps;
    } else {
      var k := Arity(a.conditions[0]);
      assert Placeholders(a.conditions) == k + Placeholders(a.conditions[1..]);
      var tail := Clauses(a.conditions[1..], a.params[k..]);
      EvalThen(tail, cs, ps, row, asDate);
      AppendTail(a.conditions, cs);
      AppendSplit(a.params, ps, k);
      EvalWhereStep(all, vs, row, asDate);
      EvalWhereStep(a.conditions, a.params, row, asDate);
      AndAssociative(Holds(a.conditions[0], a.params[..k], row, asDate),
                     EvalWhere(tail.conditions, tail.params, row, asDate),
                     EvalWhere(cs, ps, row, asDate));
    }
  }

  /** One step of the evaluation: the first condition takes its values from the front. */
  lemma EvalWhereStep(cs: seq<Condition>, params: seq<Param>, row: TimesheetRow, asDate: string -> int)
    requires |cs| > 0 && |params| >= Arity(cs[0])
    ensures EvalWhere(cs, params, row, asDate)
         == And(Holds(cs[0], params[..Arity(cs[0])], row, asDate), EvalWhere(cs[1..], params[Arity(cs[0])..], row, asDate))
  {
  }

  lemma AndAssociative(x: Option<bool>, y: Option<bool>, z: Option<bool>)
    ensures And(x, And(y, z)) == And(And(x, y), z)
  {
  }

  lemma EvalNameFilter(name: Option<string>, rest: seq<Param>, row: TimesheetRow, asDate: string -> int)
    ensures var f := NameFilter(name);
            EvalWhere(f.conditions, f.params + rest, row, asDate) == Some(name.Some? ==> row.userName == name)
  {
    var f := NameFilter(name);
    if name.Some? {
      assert (f.params + rest)[..1] == [Text(name.value)];
    }
  }

  lemma EvalProjectFilter(projectName: Option<string>, rest: seq<Param>, row: TimesheetRow, asDate: string -> int)
    ensures var f := ProjectFilter(projectName);
            EvalWhere(f.conditions, f.params + rest, row, asDate) == Some(projectName.Some? ==> row.projectName == projectName)
  {
    var f := ProjectFilter(projectName);
    if projectName.Some? {
      assert (f.params + rest)[..1] == [Text(projectName.value)];
    }
  }

  lemma EvalDateFilter(fromDate: Option<string>, toDate: Option<string>, rest: seq<Param>, row: TimesheetRow, asDate: string -> int)
    ensures var f := DateFilter(fromDate, toDate);
            EvalWhere(f.conditions, f.params + rest, row, asDate)
              == Some((fromDate.Some? ==> asDate(fromDate.value) <= row.workDate)
                      && (toDate.Some? ==> row.workDate <= asDate(toDate.value)))
  {
    var f := DateFilter(fromDate, toDate);
    if fromDate.Some? && toDate.Some? {
      assert (f.params + rest)[..2] == [Text(fromDate.value), Text(toDate.value)];
    } else if fromDate.Some? || toDate.Some? {
      assert (f.params + rest)[..1] == f.params;
    }
  }

  /** The filter conditions, with any values bound after their parameters,
      select exactly the requested rows. */
  lemma EvalFilters(q: TimesheetQuery, rest: seq<Param>, row: TimesheetRow, asDate: string -> int)
    ensures var f := Filters(q);
            EvalWhere(f.conditions, f.params + rest, row, asDate) == Some(Selected(q, row, asDate))
  {
    var d := DateFilter(OrNull(q.fromDate), OrNull(q.toDate));
    var front := FrontFilters(q);
    assert Filters(q) == Then(front, d);
    AppendAssociative(front.params, d.params, rest);
    EvalThen(front, d.conditions, d.params + rest, row, asDate);
    EvalDateFilter(OrNull(q.fromDate), OrNull(q.toDate), rest, row, asDate);
    EvalPrefix(q, row, asDate);
  }

  lemma EvalPrefix(q: TimesheetQuery, row: TimesheetRow, asDate: string -> int)
    ensures var front := FrontFilters(q);
            EvalWhere(front.conditions, front.params, row, asDate)
              == Some((Present(q.name) ==> row.userName == Some(q.name.value))
                      && (Present(q.projectName) ==> row.projectName == Some(q.projectName.value)))
  {
    var start := Clauses([Always], []);
    var n := NameFilter(OrNull(q.name));
    var p := ProjectFilter(OrNull(q.projectName));
    var sn := Then(start, n);
    EvalThen(sn, p.conditions, p.params, row, asDate);
    assert p.params + [] == p.params;
    EvalProjectFilter(OrNull(q.projectName), [], row, asDate);
    EvalThen(start, n.conditions, n.params, row, asDate);
    assert n.params + [] == n.params;
    EvalNameFilter(OrNull(q.name), [], row, asDate);
  }

  lemma PageWhereSelects(q: TimesheetQuery, row: TimesheetRow, asDate: string -> int)
    ensures var r := ReadTimesheets(q);
            EvalWhere(r.conditions, r.params, row, asDate) == Some(Selected(q, row, asDate))
  {
    var r := ReadTimesheets(q);
    var f := Filters(q);
    assert r.conditions == f.conditions && r.filterParams == f.params;
    var tail := r.params[|f.params|..];
    assert r.params == f.params + tail;
    EvalFilters(q, tail, row, asDate);
  }

  lemma FilterWhereSelects(q: TimesheetQuery, row: TimesheetRow, asDate: string -> int)
    ensures var r := ReadTimesheets(q);
            EvalWhere(r.conditions, r.filterParams, row, asDate) == Some(Selected(q, row, asDate))
  {
    var r := ReadTimesheets(q);
    var f := Filters(q);
    assert r.conditions == f.conditions && r.filterParams == f.params;
    assert f.params + [] == f.params;
    EvalFilters(q, [], row, asDate);
  }

  /** The conditions, with the parameters the handler binds (limit and offset
      included), select exactly the rows the query asks for: the named user,
      the named project, and work dates within the inclusive range given. */
  lemma WhereSelectsRequested(q: TimesheetQuery, row: TimesheetRow, asDate: string -> int)
    ensures var r := ReadTimesheets(q);
            && EvalWhere(r.conditions, r.params, row, asDate) == Some(Selected(q, row, asDate))
            && EvalWhere(r.conditions, r.filterParams, row, asDate) == Some(Selected(q, row, asDate))
  {
    PageWhereSelects(q, row, asDate);
    FilterWhereSelects(q, row, asDate);
  }

  /** The rows of the joined table the count and sum statements range over. */
  function SelectTimesheets(table: seq<TimesheetRow>, q: TimesheetQuery, asDate: string -> int): (rows: seq<TimesheetRow>)
    ensures forall row :: row in rows <==> row in table && Selected(q, row, asDate)
    ensures forall row :: multiset(rows)[row] == if Selected(q, row, asDate) then multiset(table)[row] else 0
  {
    var r := ReadTimesheets(q);
    forall row | row in table
      ensures EvalWhere(r.conditions, r.params, row, asDate) == Some(Selected(q, row, asDate))
    {
      WhereSelectsRequested(q, row, asDate);
    }
    Filter(table, (row: TimesheetRow) => EvalWhere(r.conditions, r.params, row, asDate) == Some(true))
  }
  /** Unlike the users and projects reads, the timesheet statements have no
      `deletedAt` condition: whether a timesheet is soft-deleted never changes
      whether it is listed, counted and summed. */
  lemma WhereIgnoresDeletion(q: TimesheetQuery, row: TimesheetRow, deletedAt: Option<int>, asDate: string -> int)
    ensures var r := ReadTimesheets(q);
            && EvalWhere(r.conditions, r.params, row.(deletedAt := deletedAt), asDate)
               == EvalWhere(r.conditions, r.params, row, asDate)
            && EvalWhere(r.conditions, r.filterParams, row.(deletedAt := deletedAt), asDate)
               == EvalWhere(r.conditions, r.filterParams, row, asDate)
  {
    WhereSelectsRequested(q, row, asDate);
    WhereSelectsRequested(q, row.(deletedAt := deletedAt), asDate);
  }


  // ---------------------------------------------------------------------------
  // The hours display table

  /** `adjustments` in hundredths: quarter, half and three-quarter hours of
      the first and eighth hour, and the whole hours that follow them. */
  const Adjustments: map<int, int> :=
    map[125 := 115, 150 := 130, 175 := 145, 200 := 200,
        825 := 815, 850 := 830, 875 := 845, 900 := 900]

  /** The time as a clock reading: whole hours, then the minutes as the two decimals. */
  function ClockDisplay(h: nat): nat {
    (h / 100) * 100 + (h % 100) * 60 / 100
  }

  /** `adjustHours`: a listed value becomes its clock reading; any other value is unchanged. */
  function AdjustHours(h: int): (r: int)
    ensures h in Adjustments ==> h >= 0 && r == ClockDisplay(h)
    ensures h !in Adjustments ==> r == h
    ensures r <= h
    ensures h >= 0 ==> r >= 0 && r / 100 == h / 100
  {
    if h in Adjustments then Adjustments[h] else h
  }

  /** The table maps exactly these eight values. */
  lemma AdjustmentsTable()
    ensures Adjustments.Keys == {125, 150, 175, 200, 825, 850, 875, 900}
    ensures AdjustHours(125) == 115 && AdjustHours(150) == 130 && AdjustHours(175) == 145 && AdjustHours(200) == 200
    ensures AdjustHours(825) == 815 && AdjustHours(850) == 830 && AdjustHours(875) == 845 && AdjustHours(900) == 900
  {
  }

  /** Adjusting twice is adjusting once: every output of the table is either a
      whole hour mapped to itself or not a key of the table. */
  lemma AdjustHoursIdempotent(h: int)
    ensures AdjustHours(AdjustHours(h)) == AdjustHours(h)
  {
    assert forall k :: k in Adjustments ==> Adjustments[k] !in Adjustments || Adjustments[k] == k;
  }

  /** The row mapping: same rows in the same order, only `hoursWorked` adjusted. */
  function AdjustRows(rows: seq<TimesheetRow>): (r: seq<TimesheetRow>)
    ensures |r| == |rows|
    ensures forall i :: 0 <= i < |rows| ==>
              && r[i].hoursWorked == AdjustHours(rows[i].hoursWorked)
              && r[i].(hoursWorked := rows[i].hoursWorked) == rows[i]
  {
    if |rows| == 0 then []
    else [rows[0].(hoursWorked := AdjustHours(rows[0].hoursWorked))] + AdjustRows(rows[1..])
  }

  /** The sum of the hours of some rows. */
  function SumHours(rows: seq<TimesheetRow>): int {
    if |rows| == 0 then 0 else rows[0].hoursWorked + SumHours(rows[1..])
  }

  /** `SUM(t.hoursWorked)`: NULL over no rows. */
  function SqlSum(rows: seq<TimesheetRow>): Option<int> {
    if |rows| == 0 then None else Some(SumHours(rows))
  }

  /** The response body. */
  datatype TimesheetPage = TimesheetPage(
    timesheets: seq<TimesheetRow>,
    totalTimesheetCount: nat,
    totalAdjustedHoursWorked: int)

  /** The response built from what the three statements return: the page of
      rows, the count, and the raw sum (`totalHours || 0`, then adjusted). */
  function Respond(pageRows: seq<TimesheetRow>, totalCount: nat, totalHours: Option<int>): (r: TimesheetPage)
    ensures r.timesheets == AdjustRows(pageRows)
    ensures r.totalTimesheetCount == totalCount
    ensures totalHours.None? ==> r.totalAdjustedHoursWorked == 0
    ensures totalHours.Some? ==> r.totalAdjustedHoursWorked == AdjustHours(totalHours.value)
  {
    var total := if totalHours.Some? && totalHours.value != 0 then totalHours.value else 0;
    TimesheetPage(AdjustRows(pageRows), totalCount, AdjustHours(total))
  }

  /** The response over a whole table: the count and the adjusted total cover
      every selected row, whichever page of rows is returned. */
  lemma RespondOverTable(table: seq<TimesheetRow>, q: TimesheetQuery, asDate: string -> int, pageRows: seq<TimesheetRow>)
    ensures var selected := SelectTimesheets(table, q, asDate);
            var r := Respond(pageRows, |selected|, SqlSum(selected));
            && r.totalTimesheetCount == Count(table, (row: TimesheetRow) => Selected(q, row, asDate))
            && r.totalAdjustedHoursWorked == AdjustHours(SumHours(selected))
  {
    var selected := SelectTimesheets(table, q, asDate);
    var r := ReadTimesheets(q);
    var p := (row: TimesheetRow) => EvalWhere(r.conditions, r.params, row, asDate) == Some(true);
    var s := (row: TimesheetRow) => Selected(q, row, asDate);
    forall row | row in table
      ensures p(row) == s(row)
    {
      WhereSelectsRequested(q, row, asDate);
    }
    CountMonotonic(table, p, s);
    CountMonotonic(table, s, p);
  }

  /** The adjusted total is the adjusted raw sum, not the sum of the adjusted
      rows: two rows of 1.25 hours show 1.15 each, but a total of 2.50. */
  lemma TotalIsNotSumOfAdjustedRows()
    ensures var row := TimesheetRow(1, 1, 1, "task", 125, 0, None, None, None);
            var rows := [row, row];
            && Respond(rows, 2, SqlSum(rows)).totalAdjustedHoursWorked == 250
            && SumHours(AdjustRows(rows)) == 230
  {
    var row := TimesheetRow(1, 1, 1, "task", 125, 0, None, None, None);
    var rows := [row, row];
    assert rows[1..] == [row] && rows[1..][1..] == [];
    assert SumHours([row]) == 125;
    assert SumHours(rows) == 250;
    assert AdjustRows(rows)[1..] == AdjustRows(rows[1..]) == [row.(hoursWorked := 115)];
  }
}

=== FILE: users.dfy ===
/** The users list and by-id handlers over the `users` table. */
module Users {
  import opened Common
  import opened JsNumber
  import opened Paging
  import opened SqlLike
  import opened Listing

  /** A row of the `users` table, as far as the handlers read it. */
  datatype User = User(
    userId: int,
    name: string,
    emailId: string,
    role: string,
    status: int,
    createdBy: Option<int>,
    deletedAt: Option<int>)

  /** A user joined with the name of the user who created it. */
  datatype UserRow = UserRow(user: User, createdName: Option<string>)

  /** `LEFT JOIN users ON users.userId = id`: the name of the user with that id, if any. */
  function NameOf(table: seq<User>, id: Option<int>): (r: Option<string>)
    ensures r.Some? ==> exists u :: u in table && id == Some(u.userId) && u.name == r.value
    ensures r.None? ==> id.None? || forall u :: u in table ==> u.userId != id.value
  {
    if id.None? || |table| == 0 then None
    else if table[0].userId == id.value then Some(table[0].name)
    else NameOf(table[1..], id)
  }

  /** Every user joined with its creator's name, in table order. */
  function Join(table: seq<User>): (rows: seq<UserRow>)
    ensures |rows| == |table|
    ensures forall i :: 0 <= i < |table| ==> rows[i].user == table[i]
    ensures forall i :: 0 <= i < |table| ==> rows[i].createdName == NameOf(table, table[i].createdBy)
    ensures forall row :: row in rows ==> row.user in table
  {
    seq(|table|, i requires 0 <= i < |table| => UserRow(table[i], NameOf(table, table[i].createdBy)))
  }

  /** The searched columns, in placeholder order. */
  const Columns: seq<string> := ["u.name", "u.emailId", "u.role", "ur.name"]

  /** The values of the searched columns of a joined row, in placeholder order. */
  function SearchValues(row: UserRow): seq<Option<string>> {
    [Some(row.user.name), Some(row.user.emailId), Some(row.user.role), row.createdName]
  }

  /** Which joined rows the users list shows. */
  predicate IsListed(row: UserRow, pattern: string) {
    Listed(row.user.deletedAt.Some?, SearchValues(row), pattern)
  }

  /** `readUsers`: the request sent to the database. */
  function ReadUsers(q: ListQuery): (r: ListRequest)
    ensures r.pattern == "%" + Or(q.search, "") + "%"
    ensures r.offset.Some? <==> Truthy(ReadQueryInt(q.limit)) && Truthy(ReadQueryInt(q.page))
    ensures r.offset.Some? ==> r.offset.value == (ReadQueryInt(q.page).n - 1) * ReadQueryInt(q.limit).n
    ensures |r.countParams| == 4 && forall i :: 0 <= i < 4 ==> r.countParams[i] == Text(r.pattern)
    ensures AtLeastZero(ReadQueryInt(q.limit)) ==>
              && |r.pageParams| == 6 && r.pageParams[..4] == r.countParams
              && r.pageParams[4] == LimitParam(ReadQueryInt(q.limit))
              && r.pageParams[5] == OffsetParam(r.offset)
    ensures !AtLeastZero(ReadQueryInt(q.limit)) ==> r.pageParams == r.countParams
    ensures !Present(q.limit) ==> |r.pageParams| == 6 && r.pageParams[4] == Null && r.pageParams[5] == Null
    ensures Holes(r.pageSql) == |r.pageParams| && Holes(r.countSql) == 4
  {
    BuildListRequest(q, "u.deletedAt", Columns)
  }

  /** The rows the users WHERE clause selects from the joined table, in table order. */
  function ListUsers(table: seq<User>, pattern: string): (rows: seq<UserRow>)
    ensures forall row :: row in rows <==> row in Join(table) && IsListed(row, pattern)
    ensures forall row :: row in rows ==> row.user in table && row.user.deletedAt.None?
    ensures forall row :: multiset(rows)[row] == if IsListed(row, pattern) then multiset(Join(table))[row] else 0
  {
    Filter(Join(table), (row: UserRow) => IsListed(row, pattern))
  }

  /** Both statements of `readUsers` select exactly the listed rows. */
  lemma ReadUsersSelectsListed(q: ListQuery, row: UserRow)
    ensures var r := ReadUsers(q);
            && EvalSearch(row.user.deletedAt.Some?, SearchValues(row), r.pageParams) == Some(IsListed(row, r.pattern))
            && EvalSearch(row.user.deletedAt.Some?, SearchValues(row), r.countParams) == Some(IsListed(row, r.pattern))
  {
    PageAndCountSelectListed(q, "u.deletedAt", Columns, row.user.deletedAt.Some?, SearchValues(row));
  }

  /** A search text without LIKE wildcards lists exactly the non-deleted users
      whose name, email, role or creator name contains it. */
  lemma SearchByContainment(row: UserRow, search: string)
    requires HasNoWildcards(search)
    ensures IsListed(row, SearchPattern(search)) <==>
              && row.user.deletedAt.None?
              && (|| Contains(row.user.name, search)
                  || Contains(row.user.emailId, search)
                  || Contains(row.user.role, search)
                  || (row.createdName.Some? && Contains(row.createdName.value, search)))
  {
    var vs := SearchValues(row);
    SearchFindsContaining(row.user.name, search);
    SearchFindsContaining(row.user.emailId, search);
    SearchFindsContaining(row.user.role, search);
    if row.createdName.Some? {
      SearchFindsContaining(row.createdName.value, search);
    }
    assert vs[0] == Some(row.user.name) && vs[1] == Some(row.user.emailId);
    assert vs[2] == Some(row.user.role) && vs[3] == row.createdName;
  }

  /** The default empty search lists every non-deleted user. */
  lemma EmptySearchListsAll(row: UserRow)
    ensures IsListed(row, SearchPattern("")) <==> row.user.deletedAt.None?
  {
    EmptySearchMatchesAll(row.user.name);
    assert SearchValues(row)[0] == Some(row.user.name);
  }

  /** `readUserById`: the first non-deleted user with that id, or nothing. */
  function ReadUserById(table: seq<User>, userId: int): (r: Option<UserRow>)
    ensures r.Some? ==> r.value in Join(table) && r.value.user.userId == userId && r.value.user.deletedAt.None?
    ensures r.None? <==> forall u :: u in table ==> u.userId != userId || u.deletedAt.Some?
  {
    var rows := Filter(Join(table), (row: UserRow) => row.user.deletedAt.None? && row.user.userId == userId);
    if |rows| == 0 then
      assert forall i :: 0 <= i < |table| ==> Join(table)[i] in Join(table);
      None
    else Some(rows[0])
  }
}

=== FILE: usertable.dfy ===
/** The list handler over the `user` table (a near-duplicate of the users
    list handler, with the same columns and the same parameter vectors). */
module UserTable {
  import opened Common
  import opened JsNumber
  import opened Paging
  import opened Listing
  import Users

  /** `readUsers` over the `user` table: the request sent to the database. */
  function ReadUsers(q: ListQuery): (r: ListRequest)
    ensures r.pattern == "%" + Or(q.search, "") + "%"
    ensures r.offset.Some? <==> Truthy(ReadQueryInt(q.limit)) && Truthy(ReadQueryInt(q.page))
    ensures r.offset.Some? ==> r.offset.value == (ReadQueryInt(q.page).n - 1) * ReadQueryInt(q.limit).n
    ensures r.countParams == [Text(r.pattern), Text(r.pattern), Text(r.pattern), Text(r.pattern)]
    ensures Holes(r.countSql) == |r.countParams|
    ensures AtLeastZero(ReadQueryInt(q.limit)) ==>
              r.pageParams == r.countParams + [LimitParam(ReadQueryInt(q.limit)), OffsetParam(r.offset)]
    ensures !AtLeastZero(ReadQueryInt(q.limit)) ==> r.pageParams == r.countParams
    ensures Holes(r.pageSql) == |r.pageParams|
  {
    var r := BuildListRequest(q, "u.deletedAt", Users.Columns);
    RepeatFour(Text(r.pattern));
    r
  }

  /** Both statements select exactly the non-deleted rows of the `user` table
      whose name, email, role or creator name matches the pattern. */
  lemma ReadUsersSelectsListed(q: ListQuery, row: Users.UserRow)
    ensures var r := ReadUsers(q);
            && EvalSearch(row.user.deletedAt.Some?, Users.SearchValues(row), r.pageParams) == Some(Users.IsListed(row, r.pattern))
            && EvalSearch(row.user.deletedAt.Some?, Users.SearchValues(row), r.countParams) == Some(Users.IsListed(row, r.pattern))
  {
    PageAndCountSelectListed(q, "u.deletedAt", Users.Columns, row.user.deletedAt.Some?, Users.SearchValues(row));
  }
}

=== FILE: utils.dfy ===
/** The two display helpers: `capitalizeWords`, which upper-cases the first
    character of every word, and `formatDateLocal`, which renders a date as
    `DD-MMM-YYYY` in local time. */
module Utils {
  import opened Common
  import opened JsNumber

  // ----- capitalizeWords -----

  /** The regular-expression class `\w`: ASCII letters, digits and `_`. */
  predicate IsWordChar(c: char) {
    ('a' <= c <= 'z') || ('A' <= c <= 'Z') || ('0' <= c <= '9') || c == '_'
  }

  /** `\b\w` matches at index `i`: a word character with no word character before it. */
  predicate StartsWord(s: string, i: int)
    requires 0 <= i < |s|
  {
    IsWordChar(s[i]) && (i == 0 || !IsWordChar(s[i - 1]))
  }

  /** `toUpperCase` on a character `\w` can match: only `a`..`z` change. */
  function Upper(c: char): char {
    if 'a' <= c <= 'z' then (c as int - 32) as char else c
  }

  /** The global replacement, scanning left to right; `afterWord` says
      whether the character before `s` is a word character. */
  function CapitalizeFrom(s: string, afterWord: bool): (r: string)
    ensures |r| == |s|
    ensures |s| > 0 ==> r[0] == (if IsWordChar(s[0]) && !afterWord then Upper(s[0]) else s[0])
    ensures forall i :: 0 < i < |s| ==> r[i] == (if StartsWord(s, i) then Upper(s[i]) else s[i])
  {
    if |s| == 0 then ""
    else
      var rest := CapitalizeFrom(s[1..], IsWordChar(s[0]));
      assert forall i :: 1 < i < |s| ==> (StartsWord(s, i) <==> StartsWord(s[1..], i - 1));
      [if IsWordChar(s[0]) && !afterWord then Upper(s[0]) else s[0]] + rest
  }

  /** `capitalizeWords(str)`: the empty string for a missing or non-string
      value (`None`), otherwise every word start upper-cased and every other
      character kept. */
  function CapitalizeWords(v: Option<string>): (r: string)
    ensures v.None? ==> r == ""
    ensures v.Some? ==> |r| == |v.value|
    ensures v.Some? ==> forall i :: 0 <= i < |r| ==>
              r[i] == (if StartsWord(v.value, i) then Upper(v.value[i]) else v.value[i])
  {
    if v.None? || v.value == "" then "" else CapitalizeFrom(v.value, false)
  }

  /** Exactly the lower-case letters that start a word change. */
  lemma CapitalizeChangesOnlyWordStarts(s: string, i: int)
    requires 0 <= i < |s|
    ensures CapitalizeWords(Some(s))[i] != s[i] <==> StartsWord(s, i) && 'a' <= s[i] <= 'z'
    ensures CapitalizeWords(Some(s))[i] != s[i] ==> CapitalizeWords(Some(s))[i] as int == s[i] as int - 32
  {
  }

  /** Upper-casing keeps word characters word characters. */
  lemma UpperKeepsWordChars(c: char)
    ensures IsWordChar(Upper(c)) == IsWordChar(c)
    ensures Upper(Upper(c)) == Upper(c)
  {
  }

  /** Capitalizing twice is capitalizing once. */
  lemma CapitalizeIdempotent(v: Option<string>)
    ensures CapitalizeWords(Some(CapitalizeWords(v))) == CapitalizeWords(v)
  {
    var r := CapitalizeWords(v);
    var rr := CapitalizeWords(Some(r));
    if v.Some? {
      var s := v.value;
      forall i | 0 <= i < |r|
        ensures rr[i] == r[i]
      {
        UpperKeepsWordChars(s[i]);
        if i > 0 {
          UpperKeepsWordChars(s[i - 1]);
        }
        assert StartsWord(r, i) == StartsWord(s, i);
      }
    }
  }

  // ----- formatDateLocal -----

  type MonthIndex = m: int | 0 <= m < 12
  type Day = d: int | 1 <= d <= 31 witness 1

  /** The calendar fields `getFullYear`, `getMonth` and `getDate` read in local time. */
  datatype LocalDate = LocalDate(year: int, month: MonthIndex, day: Day)

  const MonthNames: seq<string> :=
    ["Jan", "Feb", "Mar", "Apr", "May", "Jun", "Jul", "Aug", "Sep", "Oct", "Nov", "Dec"]

  /** `s.padStart(width, fill)` */
  function PadStart(s: string, width: nat, fill: char): (r: string)
    ensures |r| == if |s| >= width then |s| else width
    ensures r[|r| - |s|..] == s
    ensures forall i :: 0 <= i < |r| - |s| ==> r[i] == fill
  {
    if |s| >= width then s else Repeat(fill, width - |s|) + s
  }

  /** `day.toString().padStart(2, '0')` */
  function PadDay(d: Day): string {
    PadStart(NatToString(d), 2, '0')
  }

  /** The padded day is exactly two decimal digits spelling the day. */
  lemma PadDayDigits(d: Day)
    ensures var s := PadDay(d);
            && |s| == 2 && IsDigit(s[0], 10) && IsDigit(s[1], 10)
            && DigitValue(s[0], 10) * 10 + DigitValue(s[1], 10) == d
  {
    if d >= 10 {
      assert NatToString(d) == NatToString(d / 10) + [DigitChar(d % 10)];
      assert NatToString(d / 10) == [DigitChar(d / 10)];
    } else {
      assert NatToString(d) == [DigitChar(d)];
    }
  }

  /** `` `${day}-${month}-${year}` ``: two digits spelling the day, a dash,
      the month's abbreviation, a dash, and the year's decimal numeral. */
  function FormatDate(d: LocalDate): (r: string)
    ensures |r| >= 8 && r[2] == '-' && r[6] == '-'
    ensures IsDigit(r[0], 10) && IsDigit(r[1], 10) && DigitValue(r[0], 10) * 10 + DigitValue(r[1], 10) == d.day
    ensures r[3..6] == MonthNames[d.month]
    ensures r[7..] == IntToString(d.year)
  {
    PadDayDigits(d.day);
    DisplayLayout(PadDay(d.day), MonthNames[d.month], IntToString(d.year));
    PadDay(d.day) + "-" + MonthNames[d.month] + "-" + IntToString(d.year)
  }

  /** Where the parts of `day-month-year` sit, for a two-character day and a
      three-character month. */
  lemma DisplayLayout(day: string, month: string, year: string)
    requires |day| == 2 && |month| == 3
    ensures var r := day + "-" + month + "-" + year;
            && |r| == 7 + |year| && r[0] == day[0] && r[1] == day[1] && r[2] == '-' && r[6] == '-'
            && r[3..6] == month && r[7..] == year
  {
    var r := day + "-" + month + "-" + year;
    assert r[3..6] == month;
    assert r[7..] == year;
  }

  /** A text with dashes at 2 and 6 is its three parts joined by dashes. */
  lemma DisplaySplit(s: string)
    requires |s| >= 7 && s[2] == '-' && s[6] == '-'
    ensures s == s[..2] + "-" + s[3..6] + "-" + s[7..]
  {
    DisplayLayout(s[..2], s[3..6], s[7..]);
    var r := s[..2] + "-" + s[3..6] + "-" + s[7..];
    assert forall i :: 0 <= i < |s| ==> s[i] == r[i] by {
      forall i | 0 <= i < |s|
        ensures s[i] == r[i]
      {
        if 3 <= i < 6 {
          assert r[i] == r[3..6][i - 3];
        } else if i >= 7 {
          assert r[i] == r[7..][i - 7];
        }
      }
    }
  }

  /** The position of a month name, from index `i` on. */
  function MonthIndexFrom(name: string, i: nat): (r: Option<MonthIndex>)
    requires i <= 12
    ensures r.Some? ==> MonthNames[r.value] == name
    ensures r.None? ==> forall j :: i <= j < 12 ==> MonthNames[j] != name
    decreases 12 - i
  {
    if i == 12 then None
    else if MonthNames[i] == name then Some(i)
    else MonthIndexFrom(name, i + 1)
  }

  /** Reading a `DD-MMM-YYYY` text back into its calendar fields; the year
      must be written as its plain decimal numeral (no leading zeros). */
  function ParseDisplayDate(s: string): Option<LocalDate> {
    if |s| < 8 || s[2] != '-' || s[6] != '-' || !IsDigit(s[0], 10) || !IsDigit(s[1], 10) then None
    else
      var day := DigitValue(s[0], 10) * 10 + DigitValue(s[1], 10);
      var month := MonthIndexFrom(s[3..6], 0);
      var year := ParseDecimal(s[7..]);
      if 1 <= day <= 31 && month.Some? && year.Some? && s[7..] == IntToString(year.value)
      then Some(LocalDate(year.value, month.value, day))
      else None
  }

  lemma MonthNamesDistinct()
    ensures forall i, j :: 0 <= i < j < 12 ==> MonthNames[i] != MonthNames[j]
  {
    forall i, j | 0 <= i < j < 12
      ensures MonthNames[i] != MonthNames[j]
    {
      assert MonthNames[i][0] != MonthNames[j][0] || MonthNames[i][1] != MonthNames[j][1]
          || MonthNames[i][2] != MonthNames[j][2];
    }
  }

  /** Every month name is found at its own index. */
  lemma MonthIndexOfName(m: MonthIndex)
    ensures MonthIndexFrom(MonthNames[m], 0) == Some(m)
  {
    MonthNamesDistinct();
  }

  /** The displayed text determines the date it shows. */
  lemma FormatDateRoundTrip(d: LocalDate)
    ensures ParseDisplayDate(FormatDate(d)) == Some(d)
  {
    DecimalRoundTrip(d.year);
    MonthIndexOfName(d.month);
  }

  // The lemmas from here to `SameTwoDigitNumber` are small facts about the
  // display text and its digits, kept apart so that the proof of
  // `DisplayDateDetermined` stays small.

  /** Two decimal digits with the same value are the same character. */
  lemma DigitValueInjective(c: char, c': char)
    requires IsDigit(c, 10) && DigitValue(c, 10) == DigitValue(c', 10)
    ensures c == c'
  {
  }

  /** What a successful read of a display text says about the text. */
  lemma ParsedFields(s: string, d: LocalDate)
    requires ParseDisplayDate(s) == Some(d)
    ensures |s| >= 8 && s[2] == '-' && s[6] == '-'
    ensures IsDigit(s[0], 10) && IsDigit(s[1], 10) && DigitValue(s[0], 10) * 10 + DigitValue(s[1], 10) == d.day
    ensures s[3..6] == MonthNames[d.month]
    ensures s[7..] == IntToString(d.year)
  {
  }

  /** A two-digit number has one pair of digits. */
  lemma TwoDigitsUnique(a: int, b: int, c: int, e: int)
    requires 0 <= a < 10 && 0 <= b < 10 && 0 <= c < 10 && 0 <= e < 10
    requires a * 10 + b == c * 10 + e
    ensures a == c && b == e
  {
  }

  lemma SameTwo(x: string, y: string)
    requires |x| == 2 && |y| == 2 && x[0] == y[0] && x[1] == y[1]
    ensures x == y
  {
  }

  /** Two digits spelling the day are the padded day. */
  lemma DayTextDetermined(s: string, day: Day)
    requires |s| >= 2 && IsDigit(s[0], 10) && IsDigit(s[1], 10)
    requires DigitValue(s[0], 10) * 10 + DigitValue(s[1], 10) == day
    ensures s[..2] == PadDay(day)
  {
    PadDayDigits(day);
    SameTwoDigitNumber(s, PadDay(day));
  }

  /** Two texts starting with two digits of the same value start alike. */
  lemma SameTwoDigitNumber(s: string, p: string)
    requires |s| >= 2 && IsDigit(s[0], 10) && IsDigit(s[1], 10)
    requires |p| == 2 && IsDigit(p[0], 10) && IsDigit(p[1], 10)
    requires DigitValue(s[0], 10) * 10 + DigitValue(s[1], 10) == DigitValue(p[0], 10) * 10 + DigitValue(p[1], 10)
    ensures s[..2] == p
  {
    TwoDigitsUnique(DigitValue(s[0], 10), DigitValue(s[1], 10), DigitValue(p[0], 10), DigitValue(p[1], 10));
    DigitValueInjective(s[0], p[0]);
    DigitValueInjective(s[1], p[1]);
    SameTwo(s[..2], p);
  }

  /** Conversely, a text that reads as a date is the display of that date:
      only one text shows any given date. */
  lemma DisplayDateDetermined(s: string)
    ensures ParseDisplayDate(s).Some? ==> s == FormatDate(ParseDisplayDate(s).value)
  {
    if ParseDisplayDate(s).Some? {
      var d := ParseDisplayDate(s).value;
      ParsedFields(s, d);
      var p := PadDay(d.day);
      DayTextDetermined(s, d.day);
      DisplaySplit(s);
      assert s == p + "-" + MonthNames[d.month] + "-" + IntToString(d.year);
    }
  }

  /** `formatDateLocal(dateString)`, with `new Date(...)` given as `parse`
      (`None` for an invalid date): the empty string for a missing or empty
      input, the input unchanged when it is not a valid date, and otherwise a
      text that reads back as the parsed date. */
  function FormatDateLocal(input: Option<string>, parse: string -> Option<LocalDate>): (r: string)
    ensures input.None? || input == Some("") ==> r == ""
    ensures input.Some? && input.value != "" && parse(input.value).None? ==> r == input.value
    ensures input.Some? && input.value != "" && parse(input.value).Some? ==>
              ParseDisplayDate(r) == parse(input.value) && r[2] == '-' && r[6] == '-'
  {
    if input.None? || input.value == "" then ""
    else
      match parse(input.value)
      case None => input.value
      case Some(d) =>
        FormatDateRoundTrip(d);
        FormatDate(d)
  }
}
